=== FILE: README.md ===
# Smart Finance Tracker — a Dafny model of the transaction core

This project models the core of the Smart Finance Tracker, a personal-finance
web application. Each signed-in user keeps a ledger of income and expense
transactions. The Dafny modules follow the application's own structure.

- `ChartController`: the chart aggregation engine.
  - It takes one user's transactions, already sorted by date.
  - It builds a per-day income/expense series, shown both as the line chart and as the bar chart.
  - It builds the income/expense totals of the doughnut chart and a summary with the net balance.
  - An empty ledger gets an explicit "No transaction data available" result.
- `TransactionModel`: the transaction schema.
  - It checks the required fields, the `income`/`expense` type enumeration and a category required only for expenses.
  - Its amount setter and getter round to two decimals.
- `TransactionController`: the per-user ledger behind list, add, update and delete.
  - The datastore is a `map<TxId, Transaction>`; each operation returns the new ledger together with the reply.
  - Every operation is scoped by the caller's user id.
- `EmailController`: the password-reset token store.
  - Tokens are 32 random bytes in lower-case hex and live for one hour.
  - Expiry is checked lazily on lookup, and a token is removed after a successful reset.
- `Validation`: the contact-form and reset-form validators, including the email pattern `^[^\s@]+@[^\s@]+\.[^\s@]+$`.
- `Auth`: the bearer-header middleware, which takes the second space-separated word and classifies the verifier's answer.
- `CategorySummary`, `Dashboard`, `TransactionForm`: the calculations inside the client components.
  - `CategorySummary` breaks expenses down by category.
  - `Dashboard` computes the totals and chooses the alert.
  - `TransactionForm` filters amount keystrokes with `^\d*\.?\d{0,2}$`, and normalises and resets the form on submit.
- `Money`: amounts.
  - Amounts arrive as exact decimals (`Decimal(units, scale)`) and are stored as integer cents.
  - `toFixed(2)` is modelled as rounding to the nearest cent, with ties away from zero.
  - `IsRoundedCents` gives an independent definition of "the nearest cent", and `ToCentsIsTheNearestCent` shows that `ToCents` computes exactly that cent.
- `Strings`: `indexOf` and `split` on one separator, with the two join/split round trips.
- `Wrappers`: the `Option` type.

Inputs from outside the program are parameters:
- the clock (`now`);
- the caller's user id;
- the random bytes behind a reset token;
- whether the mail transport succeeded;
- the JWT verifier, an oracle `string -> JwtVerdict`;
- the fresh id the datastore assigns.

In the backend modules dates are millisecond timestamps, and a calendar day is `date / 86_400_000`. The transaction form works in day numbers, and "today" is a parameter.

Three behaviours of the code are worth knowing before reading the contracts:
- **Token expiry.** The code rejects a reset token only when `expires < now`, so a token is still accepted at the exact expiry instant (`emailController.js:33`).
- **Stored types.** The chart counts every type other than `"income"` as an expense. The dashboard and category breakdown look for `"expense"` exactly. Updates run without schema validators, so a stored type can fall outside the enumeration. `Dashboard.UnknownTypeSplitsTheViews` shows the two views disagreeing on any such record with a non-zero amount.
- **Chart totals.** The chart does not round its totals. Amounts are whole cents, so none of the sums here need rounding.

## Model

| member | source | states |
|---|---|---|
| ChartController.GetChartData | backend/controllers/chartController.js:13-84 | The no-data message is present exactly when the ledger is empty. The empty ledger gives empty series and a zero summary. A non-empty ledger gives the per-day series of `ProcessDaily` as both line and bar data. The summary holds the income sum and the non-income sum, and the net balance is their difference. The doughnut is `[totalIncome, totalExpense]`. Each series adds up to its summary total. |
| ChartController.EmptyBranchOnlyAddsMessage | backend/controllers/chartController.js:13-75 | The hand-written empty result is what the general path computes on an empty ledger, plus the no-data message. |
| ChartController.TallyIsByType | backend/controllers/chartController.js:106-110 | The reduce puts the sum of `"income"` amounts in the income total and the sum of all other amounts in the expense total. |
| ChartController.GroupByDaySpec | backend/controllers/chartController.js:101-112 | Grouping by day has a key for exactly the days on which a transaction falls. Each key's totals are the reduce over that day's transactions alone. |
| ChartController.InsertDay | backend/controllers/chartController.js:114 | Inserting a day into increasing labels keeps them increasing and adds that day once. |
| ChartController.SortedDays | backend/controllers/chartController.js:101-114 | The labels are strictly increasing calendar days, one for each day that has a transaction and no others. |
| ChartController.Column | backend/controllers/chartController.js:115-116 | The series has one entry per label, and entry i is the income (or expense) total of label i. |
| ChartController.ProcessDaily | backend/controllers/chartController.js:100-116 | The labels are increasing and are exactly the days with a transaction. Both series have the labels' length. Entry i is that day's income sum, or its non-income sum. |
| ChartController.CalculateSummary | backend/controllers/chartController.js:206-218 | Total income is the sum of income amounts. Total expense is the sum of all other amounts. The net balance is their difference. |
| ChartController.ProcessDoughnut | backend/controllers/chartController.js:176-190 | The doughnut data is the income sum followed by the sum of all other amounts. |
| ChartController.SumByDaysConserves | backend/controllers/chartController.js:101-112 | When every transaction's day is among the labels, adding up the per-day totals over the labels gives the totals of the whole ledger. |
| ChartController.ColumnSums | backend/controllers/chartController.js:115-116 | The sum of a series column is the income (or expense) part of the per-day totals summed over the labels. |
| ChartController.SeriesConserveTotals | backend/controllers/chartController.js:100-116 | Conservation: the income series sums to the summary's total income and the expense series to its total expense. |
| ChartController.WellTypedExpenseTotal | backend/controllers/chartController.js:206-214 | When every type is `income` or `expense`, the summary's expense total is the sum of the `expense` amounts. |
| TransactionModel.SetAmount | backend/models/transactionModel.js:13 | A present amount is stored as its nearest cent; an absent amount stays absent. |
| TransactionModel.GetAmount | backend/models/transactionModel.js:12 | Reading a stored amount through the getter returns it unchanged. |
| TransactionModel.ValidationErrors | backend/models/transactionModel.js:5-34 | Each field is reported exactly when it breaks its rule. Description, amount, date and user id are required. The type must be `income` or `expense`. A category is required exactly for expenses. |
| TransactionModel.Save | backend/models/transactionModel.js:3-41 | A save succeeds exactly when there are no validation errors. The record keeps the draft's fields and gets equal creation and update timestamps. |
| TransactionModel.IncomeAndExpensePartition | backend/models/transactionModel.js:15-19 | With types drawn from the enumeration, the income sum plus the expense sum is the sum of all amounts. |
| Money.ToCents | backend/models/transactionModel.js:13 | `toFixed(2)` on an exact decimal yields its nearest cent, with ties away from zero. |
| Money.ToCentsIsTheNearestCent | backend/models/transactionModel.js:13 | A cent is the nearest cent of a decimal (ties away from zero) exactly when it is the stored rounding, so the rounding is determined by its definition. |
| Money.CentsAreFixedPoints | backend/models/transactionModel.js:12 | Rounding an amount that is already whole cents changes nothing. |
| Money.RoundingIdempotent | backend/models/transactionModel.js:12-13 | Rounding twice is rounding once: getter after setter returns the stored value. |
| TransactionController.PreRound | backend/controllers/transactionController.js:25 | `Number(Number(amount).toFixed(2))`: an absent amount stays absent, and a present one becomes its nearest cent at scale 2. |
| TransactionController.PreRoundIsHarmless | backend/controllers/transactionController.js:25 | Rounding in the controller before the setter rounds again stores the same cents. |
| TransactionController.GetTransactions | backend/controllers/transactionController.js:4-12 | The list holds exactly the caller's records, each unchanged from the ledger, with its amount read through the getter. |
| TransactionController.AddTransaction | backend/controllers/transactionController.js:20-48 | The add succeeds exactly when the schema accepts the input (description, castable amount and date, an enumerated type, and a category for an expense). On success only the new id is added, with the caller as owner, the amount rounded to cents, and creation and update times both set to the current time. On failure it replies 500 "Error adding transaction" and the ledger is unchanged. |
| TransactionController.UpdateTransaction | backend/controllers/transactionController.js:51-88 | An id the caller does not own gives 404 "Transaction not found" and the ledger is unchanged. An uncastable amount or date gives 500 and the ledger is unchanged. Otherwise only that record is replaced: owner and creation time are kept, the five fields are replaced, and the amount is rounded. |
| TransactionController.DeleteTransaction | backend/controllers/transactionController.js:91-107 | An id the caller does not own gives 404 and the ledger is unchanged. Otherwise exactly that id is removed and every other record is unchanged. |
| TransactionController.ForeignIdIsNotFound | backend/controllers/transactionController.js:56-60 | Another user's record can be neither updated nor deleted, and the ledger is unchanged. |
| TransactionController.DeleteTwiceIsNotFound | backend/controllers/transactionController.js:95-101 | A second delete of the same id answers 404. |
| TransactionController.AddThenDeleteRestores | backend/controllers/transactionController.js:27-36 | Adding and then deleting the fresh id gives back the original ledger, whether the add succeeded or failed. |
| TransactionController.NullAmountIsStoredAsZero | backend/controllers/transactionController.js:22-25 | An amount of JSON `null` reads as 0, so an otherwise acceptable add stores a zero amount. |
| TransactionController.AddIsVisibleOnlyToCaller | backend/controllers/transactionController.js:27-34 | A new record appears in the caller's list and in no other user's. |
| TransactionController.UpdateSkipsCategoryRule | backend/controllers/transactionController.js:65-75 | Update runs no schema validators, so it accepts an expense without a category. |
| EmailController.GenerateResetToken | backend/controllers/emailController.js:20-22 | The token is 64 lower-case hex characters that decode back to the 32 random bytes. |
| EmailController.HexEncode | backend/controllers/emailController.js:21 | `toString('hex')` writes two lower-case hex characters per byte. |
| EmailController.HexRoundTrip | backend/controllers/emailController.js:21 | Hex decoding inverts hex encoding. |
| EmailController.TokensFollowRandomness | backend/controllers/emailController.js:21 | Different random bytes give different tokens. |
| EmailController.StoreResetToken | backend/controllers/emailController.js:24-29 | The token maps to the email and an expiry one hour from now, and every other token is unchanged. |
| EmailController.ValidateResetToken | backend/controllers/emailController.js:31-37 | A record is returned exactly when the token is stored and its expiry is not before now, and the record is the stored one. |
| EmailController.RemoveResetToken | backend/controllers/emailController.js:39-41 | Exactly the given token is removed and the others are unchanged. |
| EmailController.SendForgotPasswordEmail | backend/controllers/emailController.js:75-104 | The generated token is stored and is valid at once, whether or not the mail is sent. The reply is 200, or 500 when the mail fails. |
| EmailController.HandlePasswordReset | backend/controllers/emailController.js:107-139 | An unknown or expired token gives 400 "Invalid or expired token" and the store is unchanged. A valid token is removed, and then the reply is 200, or 500 when the mail fails. |
| EmailController.ResetIsSingleUse | backend/controllers/emailController.js:110-117 | After a successful reset the same token is rejected at any later time. |
| EmailController.TokenLifetime | backend/controllers/emailController.js:27-33 | A new token is still valid one hour later and rejected one second after that. |
| EmailController.ReissueKeepsEarlierTokens | backend/controllers/emailController.js:78-79 | Asking again for the same email keeps the earlier token valid, next to the new one. |
| Validation.IsValidEmail | backend/Middleware/validation.js:18-19 | The scan accepts exactly the strings the email pattern matches: a local part, one '@', and a domain with a '.' that is neither its first nor its last character, with no whitespace or other '@'. |
| Validation.EmailHasOneAt | backend/Middleware/validation.js:18 | A string with two '@' never matches the email pattern. |
| Validation.ValidateContactForm | backend/Middleware/validation.js:2-24 | The request passes exactly when all four fields are present and the email matches. A missing field gives 400 "Missing required fields", with a detail exactly for each missing field, and is reported before the format check. A bad email gives 400 "Invalid email format". |
| Validation.ValidatePasswordReset | backend/Middleware/validation.js:26-45 | The request passes exactly when a token is present and the password has at least 8 characters. A missing field gives 400 with per-field details. A short password gives 400 "Password must be at least 8 characters long". |
| Strings.Split | backend/Middleware/auth.js:5 | `split(' ')` gives at least one piece, and no piece contains the separator. |
| Strings.JoinSplit | backend/Middleware/auth.js:5 | Splitting on a separator loses nothing: joining the pieces gives the input back. |
| Strings.SplitJoin | backend/Middleware/auth.js:5 | Separator-free pieces survive a join followed by a split. |
| Auth.ExtractToken | backend/Middleware/auth.js:5 | No header means no token. A token is non-empty and contains no space. |
| Auth.ExtractTokenExactly | backend/Middleware/auth.js:5 | The extracted token is exactly the space-free run between the header's first space and the next space or the end. |
| Auth.AnySchemeWorks | backend/Middleware/auth.js:5 | The first word is never checked: any scheme followed by one space and a token yields that token. |
| Auth.OneWordCarriesNoToken | backend/Middleware/auth.js:5-9 | A header without a space carries no token. |
| Auth.DoubleSpaceCarriesNoToken | backend/Middleware/auth.js:5-9 | A header with two spaces after the scheme carries no token, because the second piece is empty. |
| Auth.ValidateToken | backend/Middleware/auth.js:4-26 | No token gives 401 "No token provided" before the verifier is asked. A decoded token passes with its user id. An expired token gives 401 "Token expired", and any other failure gives 401 "Invalid token". |
| CategorySummary.ExpensesOnly | frontend/src/components/CategorySummary.jsx:9 | Only `expense` transactions are kept. |
| CategorySummary.ExpensesOnlyIsTheFilter | frontend/src/components/CategorySummary.jsx:9 | Every `expense` transaction is kept, as many times as it occurs, and nothing else. |
| CategorySummary.GroupingAt | frontend/src/components/CategorySummary.jsx:10-20 | A category has an entry exactly when it has an expense transaction, and the entry is the sum of that category's expense amounts. |
| CategorySummary.Summarize | frontend/src/components/CategorySummary.jsx:8-27 | There is one total per category with an expense, each equal to that category's expense sum. `hasExpenses` holds exactly when some expense exists. |
| CategorySummary.IncomeNeverAppears | frontend/src/components/CategorySummary.jsx:9 | Adding an income transaction leaves the breakdown unchanged. |
| Dashboard.RenderAlert | frontend/src/components/Dashboard.jsx:21-50 | The alert is a warning exactly for an empty list. Otherwise it is the error alert exactly when expenses exceed income, the success alert exactly when income exceeds expenses, and no alert exactly when they are equal. |
| Dashboard.Render | frontend/src/components/Dashboard.jsx:11-75 | The totals are the `income` and `expense` sums. The balance is their difference and is styled as income exactly when it is not negative. The alert follows the sign of the balance. |
| Dashboard.AgreesWithChartSummary | frontend/src/components/Dashboard.jsx:11-19 | When every type is `income` or `expense`, the dashboard's totals and balance equal the chart summary's. |
| Dashboard.UnknownTypeSplitsTheViews | frontend/src/components/Dashboard.jsx:11-17 | Appending a record whose type is neither `income` nor `expense` leaves the dashboard's income, expense and balance unchanged. It leaves the chart's income total unchanged and adds the record's amount to the chart's expense total. |
| TransactionForm.AmountPatternOk | frontend/src/components/TransactionForm.jsx:63 | The left-to-right scan accepts exactly the strings of `^\d*\.?\d{0,2}$`: digits, or digits, one '.' and at most two digits. |
| TransactionForm.HandleAmountChange | frontend/src/components/TransactionForm.jsx:60-66 | An edit that matches the pattern replaces the amount; any other edit leaves it unchanged. |
| TransactionForm.EmptyEditIsPatternMatch | frontend/src/components/TransactionForm.jsx:63 | The pattern itself already accepts the empty string. |
| TransactionForm.ParseUnsigned | frontend/src/components/TransactionForm.jsx:31 | Without a sign, a text is a number exactly when it is digits, or digits around one '.' with at least one digit. Digits read as their whole value. Around a '.', the digits read as one number scaled by the count of decimals. |
| TransactionForm.ParseNumber | frontend/src/components/TransactionForm.jsx:31 | `Number("")` is 0 and `Number(".")` is NaN. A text without a leading '-' is a number exactly when it is an unsigned numeral, and digit or dotted texts read as their value. A leading '-' gives a number exactly when the rest is an unsigned numeral, and never a positive one. |
| TransactionForm.MinusNegates | frontend/src/components/TransactionForm.jsx:31 | A leading '-' is NaN exactly when the rest is NaN, and otherwise reads as the rest's value negated. |
| TransactionForm.PatternAmountsAreExact | frontend/src/components/TransactionForm.jsx:38 | Every amount the pattern admits, except a lone '.', is a non-negative number with at most two decimals, so rounding it to cents is exact. |
| TransactionForm.FormatCents | frontend/src/components/TransactionForm.jsx:15 | `toFixed(2)` on a cent amount writes a text with a point before exactly two final digits. |
| TransactionForm.FormatParseRoundTrip | frontend/src/components/TransactionForm.jsx:15 | The two-decimal text shown for a stored amount parses back to the stored cents. |
| TransactionForm.EditForm | frontend/src/components/TransactionForm.jsx:12-18 | The form loaded for editing holds an amount text that reads as the stored cents. |
| TransactionForm.HandleSubmit | frontend/src/components/TransactionForm.jsx:29-58 | Nothing is saved, and the form is unchanged, exactly when the description or amount is empty or the amount is a number at most 0. Otherwise the payload has the nearest cent of the amount (NaN stays NaN), the category only for an expense and the id only when editing, and the form is reset. |
| TransactionForm.PatternSubmitSavesPositiveCents | frontend/src/components/TransactionForm.jsx:31-38 | A pattern-admitted amount that passes the submit check is saved as a positive number of cents. |
| TransactionForm.UntouchedEditKeepsAmount | frontend/src/components/TransactionForm.jsx:15-46 | Submitting an edit form without changes saves the amount it was loaded with, together with the record's id. |
| TransactionForm.LoneDotReachesOnSaveAsNaN | frontend/src/components/TransactionForm.jsx:31 | A lone "." passes the submit check and is handed to `onSave` as NaN. |

## Left out

- Floating point. JavaScript numbers and `toFixed` work in binary floating point (`1.005` prints as `1.00`). The model uses exact decimals and integer cents, so it states the decimal rounding that was intended, not the binary artefacts.
- Locale and date parsing. `toLocaleDateString` and `new Date(label)` depend on the host's locale and time zone. A day is the UTC day of a millisecond timestamp, and labels are day numbers.
- Key order. The order in which `Object.entries` lists categories is not modelled; the breakdown is a map.
- The query and the sort by date are the datastore's job. The chart takes the user's transactions as a sequence, and the new id for an add is a fresh parameter.
- Not modelled, because they happen outside the code shown here:
  - JWT signing and expiry checks: an oracle;
  - `crypto.randomBytes`: a parameter;
  - sending mail and building the HTML bodies: the outcome is a boolean parameter;
  - the MongoDB connection;
  - the server and route wiring;
  - the contact-mail handler;
  - every UI rendering concern.
- The request encoding between the form and the backend. axios serialises the payload as JSON (`Home.jsx:53`, `63`), so a NaN amount from the form arrives as `null`. The backend model takes the already-decoded body, and `TransactionController.NullAmountIsStoredAsZero` records what `null` becomes.
- Mongoose casting beyond what the schema states. A value that cannot be cast becomes `None`, and a missing string becomes `""`. Mongoose dropping `undefined` keys from an update is not modelled.
- Concurrency. Each handler runs to completion. Node performs validate-then-remove without an intervening `await`, so a sequential model suffices.
- Failures of the datastore itself are not modelled. The code answers these with a 500:
  - an id that is not a valid ObjectId makes `findOne` throw, so update and delete reply 500 "Error updating transaction" / "Error deleting transaction", not 404 (`transactionController.js:56`, `84-86`, `95`, `104-105`). Ids are natural numbers here and every id is well formed;
  - a failed query replies 500 in `getTransactions`, `deleteTransaction` and `getChartData` (`transactionController.js:13-16`, `chartController.js:90-95`). The datastore here never fails.
- `timestamps: true`. It is modelled only as equal creation and update times on save and a refreshed update time on update.
- TransactionForm.ParseNumber: it covers only the strings the amount field can hold, and what the edit form loads. These are an optional '-', digits and at most one '.'. Whitespace, exponents, hexadecimal and `Infinity`, which `Number` also accepts, are not modelled.
- Validation.ValidatePasswordReset: request fields are typed as strings. A JSON number such as `newPassword: 12` is truthy and has no `length`, and `undefined < 8` is false, so the code lets a short numeric password through. The model cannot express that input.
- Validation.ValidatePasswordReset: the password length is counted in characters. JavaScript counts UTF-16 code units, so the two differ for characters outside the Basic Multilingual Plane.
- CategorySummary.Summarize: categories are plain map keys. The code accumulates into a plain `{}`, so for a category named like an inherited member (`constructor`, `toString`, `__proto__`) `acc[category]` is already truthy and is never initialised. The amount goes to the inherited member, the category is missing from `Object.keys`, and `hasExpenses` can be false. The model gives such a category an entry and sets `hasExpenses`.
- CategorySummary.Summarize: the `toFixed(2)` applied to each category total is not modelled. Totals of whole cents are already exact, so that rounding cannot change them.

=== FILE: auth.dfy ===
/** The authentication middleware: takes the token from the Authorization
    header and classifies the verifier's answer. Signature and expiry checks
    belong to the JWT library and enter as the `verify` oracle. */
module Auth {
  import opened Wrappers
  import opened Strings
  import opened TransactionModel

  /** What `jwt.verify` does with a token: decodes it, or throws a
      `TokenExpiredError`, or throws any other error. */
  datatype JwtVerdict = Decoded(id: UserId) | TokenExpiredError | VerifyError

  /** `next()` with the caller's id attached to the request, or a 401 reply. */
  datatype AuthResult = Authenticated(userId: UserId) | Unauthorized(status: nat, error: string)

  const NoToken := Unauthorized(401, "No token provided")
  const Expired := Unauthorized(401, "Token expired")
  const Invalid := Unauthorized(401, "Invalid token")

  /** `req.headers.authorization?.split(' ')[1]`, with an empty second piece
      treated like a missing one (both are falsy). The first word is not looked at. */
  function ExtractToken(header: Option<string>): (r: Option<string>)
    ensures header.None? ==> r.None?
    ensures r.Some? ==> r.value != "" && ' ' !in r.value
  {
    match header
    case None => None
    case Some(h) =>
      var parts := Split(h, ' ');
      if |parts| >= 2 && parts[1] != "" then Some(parts[1]) else None
  }

  /** `t` starts right after the space at `i`, the header's first space,
      and ends at the next space or at the end of the header. */
  predicate TokenAfter(h: string, t: string, i: int)
  {
    && 0 <= i && i + 1 + |t| <= |h|
    && h[i] == ' ' && ' ' !in h[..i]
    && h[i + 1..i + 1 + |t|] == t
    && (i + 1 + |t| == |h| || h[i + 1 + |t|] == ' ')
  }

  /** The token is the text between the header's first space and the next
      space (or the end): a non-empty run without spaces. */
  ghost predicate TokenAt(h: string, t: string)
  {
    t != "" && ' ' !in t && exists i :: TokenAfter(h, t, i)
  }

  /** `ExtractToken` finds exactly the token that sits after the first space. */
  lemma ExtractTokenExactly(h: string, t: string)
    ensures ExtractToken(Some(h)) == Some(t) <==> TokenAt(h, t)
  {
    if ExtractToken(Some(h)) == Some(t) {
      ExtractedTokenIsAt(h, t);
    }
    if TokenAt(h, t) {
      var i :| TokenAfter(h, t, i);
      TokenAtIsExtracted(h, t, i);
    }
  }

  lemma ExtractedTokenIsAt(h: string, t: string)
    requires ExtractToken(Some(h)) == Some(t)
    ensures TokenAt(h, t)
  {
    var i := IndexOf(h, ' ').value;
    var rest := h[i + 1..];
    assert Split(h, ' ') == [h[..i]] + Split(rest, ' ');
    assert Split(rest, ' ')[0] == t;
    match IndexOf(rest, ' ')
    case None =>
      assert rest == t;
      assert h[i + 1..i + 1 + |t|] == t;
      assert TokenAfter(h, t, i);
    case Some(j) =>
      assert rest[..j] == t;
      assert h[i + 1..i + 1 + |t|] == t;
      assert h[i + 1 + |t|] == rest[j];
      assert TokenAfter(h, t, i);
  }

  lemma TokenAtIsExtracted(h: string, t: string, i: int)
    requires t != "" && ' ' !in t && TokenAfter(h, t, i)
    ensures ExtractToken(Some(h)) == Some(t)
  {
    var rest := h[i + 1..];
    assert h == h[..i] + [' '] + rest;
    SplitAfterFirst(h[..i], rest, ' ');
    assert rest[..|t|] == t;
    FirstPiece(rest, t);
  }

  /** A space-free run at the start of a text, ended by a space or by the end
      of the text, is its first piece. */
  lemma FirstPiece(rest: string, t: string)
    requires ' ' !in t && |t| <= |rest| && rest[..|t|] == t
    requires |t| == |rest| || rest[|t|] == ' '
    ensures Split(rest, ' ')[0] == t
  {
    if |t| == |rest| {
      assert rest == t;
      assert IndexOf(rest, ' ').None?;
    } else {
      var after := rest[|t| + 1..];
      assert rest == rest[..|t|] + [' '] + after;
      SplitAfterFirst(t, after, ' ');
    }
  }

  /** The scheme word is never checked: any space-free first word followed by
      one space and a space-free token yields that token. */
  lemma AnySchemeWorks(scheme: string, t: string)
    requires ' ' !in scheme && ' ' !in t && t != ""
    ensures ExtractToken(Some(scheme + " " + t)) == Some(t)
  {
    var h := scheme + " " + t;
    assert h[|scheme|] == ' ' && h[..|scheme|] == scheme && h[|scheme| + 1..|scheme| + 1 + |t|] == t;
    TokenAtIsExtracted(h, t, |scheme|);
  }

  /** A header that is one word, without a space, carries no token. */
  lemma OneWordCarriesNoToken(scheme: string)
    requires ' ' !in scheme
    ensures ExtractToken(Some(scheme)).None?
  {
    assert Split(scheme, ' ') == [scheme];
  }

  /** With two spaces after the scheme the second piece is empty, so there
      is no token. */
  lemma DoubleSpaceCarriesNoToken(scheme: string, rest: string)
    requires ' ' !in scheme
    ensures ExtractToken(Some(scheme + "  " + rest)).None?
  {
    var h := scheme + "  " + rest;
    var after := " " + rest;
    assert h == scheme + [' '] + after;
    SplitAfterFirst(scheme, after, ' ');
    assert after == [] + [' '] + rest;
    SplitAfterFirst([], rest, ' ');
    assert Split(h, ' ')[1] == "";
  }

  /** `validateToken`: no token is a 401 before the verifier is consulted; a
      decoded token lets the request through with the caller's id; an expired
      one and any other failure are told apart. */
  function ValidateToken(header: Option<string>, verify: string -> JwtVerdict): (r: AuthResult)
    ensures ExtractToken(header).None? ==> r == NoToken
    ensures r.Authenticated? <==> ExtractToken(header).Some? && verify(ExtractToken(header).value).Decoded?
    ensures r.Authenticated? ==> r.userId == verify(ExtractToken(header).value).id
    ensures r == Expired <==> ExtractToken(header).Some? && verify(ExtractToken(header).value) == TokenExpiredError
    ensures r == Invalid <==> ExtractToken(header).Some? && verify(ExtractToken(header).value) == VerifyError
  {
    match ExtractToken(header)
    case None => NoToken
    case Some(token) =>
      match verify(token)
      case Decoded(id) => Authenticated(id)
      case TokenExpiredError => Expired
      case VerifyError => Invalid
  }
}

=== FILE: category_summary.dfy ===
/** The category breakdown shown under the dashboard: expense transactions
    grouped by category, each total kept to two decimals. The result is a
    map; the display order of the entries is not modelled. */
module CategorySummary {
  import opened TransactionModel

  /** `transactionsData.filter(t => t.type === "expense")`. */
  function ExpensesOnly(txs: seq<Transaction>): (r: seq<Transaction>)
    ensures forall i :: 0 <= i < |r| ==> r[i].txType == ExpenseType
  {
    if |txs| == 0 then []
    else
      var t := txs[|txs| - 1];
      ExpensesOnly(txs[..|txs| - 1]) + (if t.txType == ExpenseType then [t] else [])
  }

  /** The filter keeps every expense, as often as it occurs, and nothing
      else. */
  lemma {:induction false} ExpensesOnlyIsTheFilter(txs: seq<Transaction>)
    ensures forall t :: multiset(ExpensesOnly(txs))[t] == if t.txType == ExpenseType then multiset(txs)[t] else 0
  {
    if |txs| > 0 {
      var p, t := txs[..|txs| - 1], txs[|txs| - 1];
      ExpensesOnlyIsTheFilter(p);
      assert txs == p + [t];
    }
  }

  /** The `reduce` that adds each amount to its category's running total. */
  function GroupByCategory(txs: seq<Transaction>): map<string, int>
  {
    if |txs| == 0 then map[]
    else
      var acc := GroupByCategory(txs[..|txs| - 1]);
      var t := txs[|txs| - 1];
      var current := if t.category in acc then acc[t.category] else 0;
      acc[t.category := current + t.amount]
  }

  /** Reference: the sum of the expense amounts filed under `category`. */
  function CategorySum(txs: seq<Transaction>, category: string): int
  {
    if |txs| == 0 then 0
    else
      var t := txs[|txs| - 1];
      CategorySum(txs[..|txs| - 1], category)
        + (if t.txType == ExpenseType && t.category == category then t.amount else 0)
  }

  ghost predicate HasExpenseIn(txs: seq<Transaction>, category: string)
  {
    exists i :: 0 <= i < |txs| && txs[i].txType == ExpenseType && txs[i].category == category
  }

  ghost predicate HasExpense(txs: seq<Transaction>)
  {
    exists i :: 0 <= i < |txs| && txs[i].txType == ExpenseType
  }

  /** What the component renders from: the rounded totals and whether there
      is anything to show. */
  datatype CategoryView = CategoryView(totals: map<string, int>, hasExpenses: bool)

  /** `CategorySummary`: one entry per category that has an expense, holding
      that category's expense sum (rounded to two decimals, which leaves whole
      cents as they are); income never contributes. */
  function Summarize(txs: seq<Transaction>): (r: CategoryView)
    ensures forall c :: c in r.totals <==> HasExpenseIn(txs, c)
    ensures forall c :: c in r.totals ==> r.totals[c] == CategorySum(txs, c)
    ensures r.hasExpenses <==> HasExpense(txs)
  {
    var grouped := GroupByCategory(ExpensesOnly(txs));
    var totals := map c | c in grouped :: GetAmount(grouped[c]);
    GroupingSpec(txs);
    assert HasExpense(txs) <==> |totals| > 0 by {
      if HasExpense(txs) {
        var i :| 0 <= i < |txs| && txs[i].txType == ExpenseType;
        assert HasExpenseIn(txs, txs[i].category);
        assert txs[i].category in totals;
      }
      if |totals| > 0 {
        var c :| c in totals;
        assert HasExpenseIn(txs, c);
      }
    }
    CategoryView(totals, |totals| > 0)
  }

  lemma GroupingSpec(txs: seq<Transaction>)
    ensures forall c :: c in GroupByCategory(ExpensesOnly(txs)) <==> HasExpenseIn(txs, c)
    ensures forall c :: c in GroupByCategory(ExpensesOnly(txs)) ==>
              GroupByCategory(ExpensesOnly(txs))[c] == CategorySum(txs, c)
  {
    forall c
      ensures c in GroupByCategory(ExpensesOnly(txs)) <==> HasExpenseIn(txs, c)
      ensures c in GroupByCategory(ExpensesOnly(txs)) ==> GroupByCategory(ExpensesOnly(txs))[c] == CategorySum(txs, c)
    {
      GroupingAt(txs, c);
    }
  }

  /** Grouping the expenses by category agrees with the reference sum, one
      category at a time. */
  lemma {:induction false} GroupingAt(txs: seq<Transaction>, c: string)
    ensures c in GroupByCategory(ExpensesOnly(txs)) <==> HasExpenseIn(txs, c)
    ensures c in GroupByCategory(ExpensesOnly(txs)) ==> GroupByCategory(ExpensesOnly(txs))[c] == CategorySum(txs, c)
  {
    if |txs| > 0 {
      var p, t := txs[..|txs| - 1], txs[|txs| - 1];
      GroupingAt(p, c);
      HasExpenseInSnoc(txs, c);
      var e := ExpensesOnly(txs);
      if t.txType == ExpenseType {
        assert e == ExpensesOnly(p) + [t];
        assert e[..|e| - 1] == ExpensesOnly(p) && e[|e| - 1] == t;
        if !HasExpenseIn(p, c) {
          NoExpenseSumsToZero(p, c);
        }
      } else {
        assert e == ExpensesOnly(p);
      }
    }
  }

  lemma HasExpenseInSnoc(txs: seq<Transaction>, c: string)
    requires |txs| > 0
    ensures var t := txs[|txs| - 1];
            HasExpenseIn(txs, c) <==> HasExpenseIn(txs[..|txs| - 1], c) || (t.txType == ExpenseType && t.category == c)
  {
    var p, t := txs[..|txs| - 1], txs[|txs| - 1];
    if HasExpenseIn(p, c) {
      var i :| 0 <= i < |p| && p[i].txType == ExpenseType && p[i].category == c;
      assert txs[i] == p[i];
    }
    if HasExpenseIn(txs, c) && !(t.txType == ExpenseType && t.category == c) {
      var i :| 0 <= i < |txs| && txs[i].txType == ExpenseType && txs[i].category == c;
      assert p[i] == txs[i];
    }
  }

  lemma {:induction false} NoExpenseSumsToZero(txs: seq<Transaction>, c: string)
    requires !HasExpenseIn(txs, c)
    ensures CategorySum(txs, c) == 0
  {
    if |txs| > 0 {
      HasExpenseInSnoc(txs, c);
      NoExpenseSumsToZero(txs[..|txs| - 1], c);
    }
  }

  /** Adding an income transaction never changes the breakdown. */
  lemma IncomeNeverAppears(txs: seq<Transaction>, t: Transaction)
    requires t.txType == IncomeType
    ensures Summarize(txs + [t]) == Summarize(txs)
  {
    var txs' := txs + [t];
    assert txs'[..|txs'| - 1] == txs;
    assert ExpensesOnly(txs') == ExpensesOnly(txs);
  }
}

=== FILE: chart_controller.dfy ===
/** The chart aggregation engine: from one user's transactions (already sorted
    by date by the query) to a per-day income/expense series, shown both as a
    line and as a bar chart, the income/expense totals of the doughnut chart
    and a summary with the net balance. */
module ChartController {
  import opened Wrappers
  import opened TransactionModel

  const MsPerDay: int := 86_400_000
  const NoDataMessage: string := "No transaction data available"

  /** The calendar day of a timestamp: the time of day is dropped. */
  function DayOf(date: int): int
  {
    date / MsPerDay
  }

  /** An income and an expense running total. */
  datatype Totals = Totals(income: int, expense: int)

  const Zero: Totals := Totals(0, 0)

  function Plus(a: Totals, b: Totals): Totals
  {
    Totals(a.income + b.income, a.expense + b.expense)
  }

  /** One reducer step: an "income" transaction adds to income, every other
      type (whatever the string) adds to expense. */
  function Accumulate(acc: Totals, t: Transaction): Totals
  {
    if t.txType == IncomeType then acc.(income := acc.income + t.amount)
    else acc.(expense := acc.expense + t.amount)
  }

  /** The reduce over a sequence of transactions, from `Zero`. */
  function Tally(txs: seq<Transaction>): Totals
  {
    if |txs| == 0 then Zero else Accumulate(Tally(txs[..|txs| - 1]), txs[|txs| - 1])
  }

  /** The transactions that fall on calendar day `day`, in order. */
  function OnDay(txs: seq<Transaction>, day: int): seq<Transaction>
  {
    if |txs| == 0 then []
    else
      var t := txs[|txs| - 1];
      OnDay(txs[..|txs| - 1], day) + (if DayOf(t.date) == day then [t] else [])
  }

  /** Reference definitions of one day's figures, in terms of the plain sums. */
  function DayIncome(txs: seq<Transaction>, day: int): int
  {
    SumOfType(OnDay(txs, day), IncomeType)
  }

  function DayExpense(txs: seq<Transaction>, day: int): int
  {
    SumAmounts(OnDay(txs, day)) - SumOfType(OnDay(txs, day), IncomeType)
  }

  /** Some transaction falls on calendar day `day`. */
  ghost predicate HasDay(txs: seq<Transaction>, day: int)
  {
    exists i :: 0 <= i < |txs| && DayOf(txs[i].date) == day
  }

  predicate Increasing(s: seq<int>)
  {
    forall i, j :: 0 <= i < j < |s| ==> s[i] < s[j]
  }

  /** The reducer's totals are the income sum and the sum of everything else. */
  lemma {:induction false} TallyIsByType(txs: seq<Transaction>)
    ensures Tally(txs).income == SumOfType(txs, IncomeType)
    ensures Tally(txs).expense == SumAmounts(txs) - SumOfType(txs, IncomeType)
  {
    if |txs| > 0 {
      TallyIsByType(txs[..|txs| - 1]);
    }
  }

  lemma HasDaySnoc(txs: seq<Transaction>, day: int)
    requires |txs| > 0
    ensures HasDay(txs, day) <==> HasDay(txs[..|txs| - 1], day) || DayOf(txs[|txs| - 1].date) == day
  {
    var p := txs[..|txs| - 1];
    if HasDay(p, day) {
      var i :| 0 <= i < |p| && DayOf(p[i].date) == day;
      assert txs[i] == p[i];
    }
    if HasDay(txs, day) && DayOf(txs[|txs| - 1].date) != day {
      var i :| 0 <= i < |txs| && DayOf(txs[i].date) == day;
      assert p[i] == txs[i];
    }
  }

  /** `groupedByDate`: the reduce that keeps one running total per calendar day. */
  function GroupByDay(txs: seq<Transaction>): map<int, Totals>
  {
    if |txs| == 0 then map[]
    else
      var acc := GroupByDay(txs[..|txs| - 1]);
      var t := txs[|txs| - 1];
      var day := DayOf(t.date);
      var current := if day in acc then acc[day] else Zero;
      acc[day := Accumulate(current, t)]
  }

  /** Grouping by day is the same as filtering each day and then reducing:
      there is a key for exactly the days that occur, and its totals are that
      day's totals. */
  lemma {:induction false} GroupByDaySpec(txs: seq<Transaction>)
    ensures forall day :: day in GroupByDay(txs) <==> HasDay(txs, day)
    ensures forall day :: day in GroupByDay(txs) ==> GroupByDay(txs)[day] == Tally(OnDay(txs, day))
  {
    if |txs| > 0 {
      var p := txs[..|txs| - 1];
      GroupByDaySpec(p);
      forall day
        ensures day in GroupByDay(txs) <==> HasDay(txs, day)
      {
        HasDaySnoc(txs, day);
      }
      forall day | day in GroupByDay(txs)
        ensures GroupByDay(txs)[day] == Tally(OnDay(txs, day))
      {
        var t := txs[|txs| - 1];
        var f := OnDay(txs, day);
        if DayOf(t.date) == day {
          assert f == OnDay(p, day) + [t];
          assert f[..|f| - 1] == OnDay(p, day) && f[|f| - 1] == t;
          assert Tally(f) == Accumulate(Tally(OnDay(p, day)), t);
          if day !in GroupByDay(p) {
            OnDayEmpty(p, day);
          }
        } else {
          assert f == OnDay(p, day);
        }
      }
    }
  }

  lemma {:induction false} OnDayEmpty(txs: seq<Transaction>, day: int)
    requires !HasDay(txs, day)
    ensures OnDay(txs, day) == []
  {
    if |txs| > 0 {
      HasDaySnoc(txs, day);
      OnDayEmpty(txs[..|txs| - 1], day);
    }
  }

  /** Inserts a day into an increasing sequence of days, once. */
  function InsertDay(day: int, s: seq<int>): (r: seq<int>)
    requires Increasing(s)
    ensures Increasing(r)
    ensures forall x :: x in r <==> x in s || x == day
  {
    if |s| == 0 then [day]
    else if day < s[0] then [day] + s
    else if day == s[0] then s
    else
      var rest := InsertDay(day, s[1..]);
      assert forall x :: x in s <==> x == s[0] || x in s[1..];
      assert forall x :: x in rest ==> s[0] < x by {
        HeadBelowTail(s);
      }
      PrependSmaller(s[0], rest);
      [s[0]] + rest
  }

  lemma HeadBelowTail(s: seq<int>)
    requires Increasing(s) && |s| > 0
    ensures forall x :: x in s[1..] ==> s[0] < x
  {
    forall x | x in s[1..]
      ensures s[0] < x
    {
      var k :| 0 <= k < |s[1..]| && s[1..][k] == x;
      assert s[k + 1] == x;
    }
  }

  lemma PrependSmaller(h: int, rest: seq<int>)
    requires Increasing(rest) && forall x :: x in rest ==> h < x
    ensures Increasing([h] + rest)
  {
    var s := [h] + rest;
    forall i, j | 0 <= i < j < |s|
      ensures s[i] < s[j]
    {
      assert s[j] == rest[j - 1];
      if i > 0 {
        assert s[i] == rest[i - 1];
      } else {
        assert rest[j - 1] in rest;
      }
    }
  }

  /** `Object.keys(groupedByDate).sort(...)`: the distinct calendar days,
      ascending. */
  function SortedDays(txs: seq<Transaction>): (r: seq<int>)
    ensures Increasing(r)
    ensures forall day :: day in r <==> HasDay(txs, day)
  {
    if |txs| == 0 then []
    else
      var r := InsertDay(DayOf(txs[|txs| - 1].date), SortedDays(txs[..|txs| - 1]));
      assert forall day :: day in r <==> HasDay(txs, day) by {
        forall day
          ensures day in r <==> HasDay(txs, day)
        {
          HasDaySnoc(txs, day);
        }
      }
      r
  }

  /** `dates.map(date => groupedByDate[date].income)` (or `.expense`). */
  function Column(days: seq<int>, g: map<int, Totals>, income: bool): (r: seq<int>)
    requires forall i :: 0 <= i < |days| ==> days[i] in g
    ensures |r| == |days|
    ensures forall i :: 0 <= i < |days| ==> r[i] == if income then g[days[i]].income else g[days[i]].expense
  {
    if |days| == 0 then []
    else [if income then g[days[0]].income else g[days[0]].expense] + Column(days[1..], g, income)
  }

  /** The labels and the two data series of a line or bar chart. */
  datatype Series = Series(labels: seq<int>, income: seq<int>, expense: seq<int>)

  /** `processLineData` and `processBarData`: the two functions differ only in
      colours, so both charts are this one series. */
  function ProcessDaily(txs: seq<Transaction>): (r: Series)
    ensures Increasing(r.labels)
    ensures forall day :: day in r.labels <==> HasDay(txs, day)
    ensures |r.income| == |r.labels| && |r.expense| == |r.labels|
    ensures forall i :: 0 <= i < |r.labels| ==>
              r.income[i] == DayIncome(txs, r.labels[i]) && r.expense[i] == DayExpense(txs, r.labels[i])
  {
    var g := GroupByDay(txs);
    var days := SortedDays(txs);
    GroupByDaySpec(txs);
    var r := Series(days, Column(days, g, true), Column(days, g, false));
    assert forall i :: 0 <= i < |days| ==>
             r.income[i] == DayIncome(txs, days[i]) && r.expense[i] == DayExpense(txs, days[i]) by {
      forall i | 0 <= i < |days|
        ensures r.income[i] == DayIncome(txs, days[i]) && r.expense[i] == DayExpense(txs, days[i])
      {
        TallyIsByType(OnDay(txs, days[i]));
      }
    }
    r
  }

  /** The income and expense sums of the whole sequence. */
  datatype Summary = Summary(totalIncome: int, totalExpense: int, netBalance: int)

  /** `calculateSummary`. */
  function CalculateSummary(txs: seq<Transaction>): (r: Summary)
    ensures r.totalIncome == SumOfType(txs, IncomeType)
    ensures r.totalExpense == SumAmounts(txs) - SumOfType(txs, IncomeType)
    ensures r.netBalance == r.totalIncome - r.totalExpense
  {
    TallyIsByType(txs);
    var totals := Tally(txs);
    Summary(totals.income, totals.expense, totals.income - totals.expense)
  }

  /** `processDoughnutData`: the data pair [income, expenses]. */
  function ProcessDoughnut(txs: seq<Transaction>): (r: seq<int>)
    ensures r == [SumOfType(txs, IncomeType), SumAmounts(txs) - SumOfType(txs, IncomeType)]
  {
    TallyIsByType(txs);
    var totals := Tally(txs);
    [totals.income, totals.expense]
  }

  /** The payload of a chart-data reply. */
  datatype ChartData = ChartData(
    noDataMessage: Option<string>,
    lineData: Series,
    barData: Series,
    doughnutData: seq<int>,
    summary: Summary)

  const EmptySeries: Series := Series([], [], [])

  /** `getChartData` on the user's transactions: the daily series, the
      doughnut pair and the summary, whose totals the series add up to. */
  function GetChartData(txs: seq<Transaction>): (r: ChartData)
    ensures |txs| == 0 <==> r.noDataMessage.Some?
    ensures |txs| == 0 ==> && r.noDataMessage == Some(NoDataMessage)
                           && r.lineData == EmptySeries
                           && r.summary == Summary(0, 0, 0)
    ensures |txs| > 0 ==> r.lineData == ProcessDaily(txs)
    ensures r.barData == r.lineData
    ensures r.summary.totalIncome == SumOfType(txs, IncomeType)
    ensures r.summary.totalExpense == SumAmounts(txs) - SumOfType(txs, IncomeType)
    ensures r.summary.netBalance == r.summary.totalIncome - r.summary.totalExpense
    ensures r.doughnutData == [r.summary.totalIncome, r.summary.totalExpense]
    ensures SumSeq(r.lineData.income) == r.summary.totalIncome
    ensures SumSeq(r.lineData.expense) == r.summary.totalExpense
  {
    SeriesConserveTotals(txs);
    if |txs| == 0 then
      ChartData(Some(NoDataMessage), EmptySeries, EmptySeries, [0, 0], Summary(0, 0, 0))
    else
      ChartData(None, ProcessDaily(txs), ProcessDaily(txs), ProcessDoughnut(txs), CalculateSummary(txs))
  }

  function SumSeq(s: seq<int>): int
  {
    if |s| == 0 then 0 else s[0] + SumSeq(s[1..])
  }

  /** The reduced totals of each listed day, added up. */
  function SumByDays(days: seq<int>, txs: seq<Transaction>): Totals
  {
    if |days| == 0 then Zero else Plus(Tally(OnDay(txs, days[0])), SumByDays(days[1..], txs))
  }

  /** What one transaction contributes to a reduce. */
  function Contribution(t: Transaction): Totals
  {
    Accumulate(Zero, t)
  }

  lemma {:induction false} SumByDaysOfNothing(days: seq<int>)
    ensures SumByDays(days, []) == Zero
  {
    if |days| > 0 {
      SumByDaysOfNothing(days[1..]);
    }
  }

  /** Appending one transaction adds its contribution to the one listed day
      it falls on, if that day is listed. */
  lemma {:induction false} SumByDaysSnoc(days: seq<int>, txs: seq<Transaction>, t: Transaction)
    requires Increasing(days)
    ensures SumByDays(days, txs + [t]) ==
              if DayOf(t.date) in days then Plus(SumByDays(days, txs), Contribution(t)) else SumByDays(days, txs)
  {
    if |days| > 0 {
      var whole := txs + [t];
      assert whole[..|whole| - 1] == txs;
      var d0 := days[0];
      var f := OnDay(whole, d0);
      assert Increasing(days[1..]);
      SumByDaysSnoc(days[1..], txs, t);
      if DayOf(t.date) == d0 {
        assert f == OnDay(txs, d0) + [t];
        assert f[..|f| - 1] == OnDay(txs, d0);
        assert DayOf(t.date) !in days[1..];
      } else {
        assert f == OnDay(txs, d0);
        assert DayOf(t.date) in days <==> DayOf(t.date) in days[1..];
      }
    }
  }

  /** Conservation: over an increasing list of days that covers every day
      occurring in the transactions, the per-day totals add up to the totals
      of the whole sequence. */
  lemma {:induction false} SumByDaysConserves(days: seq<int>, txs: seq<Transaction>)
    requires Increasing(days)
    requires forall i :: 0 <= i < |txs| ==> DayOf(txs[i].date) in days
    ensures SumByDays(days, txs) == Tally(txs)
  {
    if |txs| == 0 {
      SumByDaysOfNothing(days);
    } else {
      var p, t := txs[..|txs| - 1], txs[|txs| - 1];
      assert txs == p + [t];
      forall i | 0 <= i < |p|
        ensures DayOf(p[i].date) in days
      {
        assert p[i] == txs[i];
      }
      SumByDaysConserves(days, p);
      SumByDaysSnoc(days, p, t);
      AccumulateIsPlus(Tally(p), t);
    }
  }

  lemma AccumulateIsPlus(acc: Totals, t: Transaction)
    ensures Accumulate(acc, t) == Plus(acc, Contribution(t))
  {
  }

  lemma {:induction false} ColumnSums(days: seq<int>, txs: seq<Transaction>)
    requires forall i :: 0 <= i < |days| ==> days[i] in GroupByDay(txs)
    ensures SumSeq(Column(days, GroupByDay(txs), true)) == SumByDays(days, txs).income
    ensures SumSeq(Column(days, GroupByDay(txs), false)) == SumByDays(days, txs).expense
  {
    if |days| > 0 {
      GroupByDaySpec(txs);
      ColumnSums(days[1..], txs);
      var g := GroupByDay(txs);
      assert Column(days, g, true)[1..] == Column(days[1..], g, true);
      assert Column(days, g, false)[1..] == Column(days[1..], g, false);
    }
  }

  /** The income series sums to the total income and the expense series to
      the total expense, so no amount is lost or counted twice by grouping. */
  lemma SeriesConserveTotals(txs: seq<Transaction>)
    ensures SumSeq(ProcessDaily(txs).income) == CalculateSummary(txs).totalIncome
    ensures SumSeq(ProcessDaily(txs).expense) == CalculateSummary(txs).totalExpense
  {
    var days := SortedDays(txs);
    GroupByDaySpec(txs);
    ColumnSums(days, txs);
    forall i | 0 <= i < |txs|
      ensures DayOf(txs[i].date) in days
    {
      assert HasDay(txs, DayOf(txs[i].date));
    }
    SumByDaysConserves(days, txs);
    TallyIsByType(txs);
  }

  /** The explicit empty-ledger reply differs from what the general branch
      would compute on no transactions only by its "no data" message. */
  lemma EmptyBranchOnlyAddsMessage()
    ensures var general := ChartData(None, ProcessDaily([]), ProcessDaily([]), ProcessDoughnut([]), CalculateSummary([]));
            GetChartData([]) == general.(noDataMessage := Some(NoDataMessage))
  {
  }

  /** On a well-typed ledger the chart's expense total (everything that is not
      income) is exactly the sum of the "expense" transactions. */
  lemma WellTypedExpenseTotal(txs: seq<Transaction>)
    requires WellTyped(txs)
    ensures CalculateSummary(txs).totalExpense == SumOfType(txs, ExpenseType)
  {
    IncomeAndExpensePartition(txs);
  }
}

=== FILE: dashboard.dfy ===
/** The dashboard's figures: income and expense totals, the remaining
    balance, the style of the balance card and which alert to show. */
module Dashboard {
  import opened TransactionModel
  import ChartController

  /** The alert rendered under the cards, or none. */
  datatype Alert = NoTransactionsWarning | ExpensesExceedIncome | IncomeExceedsExpenses | NoAlert

  /** The colour scheme of a revenue card. */
  datatype CardStyle = IncomeStyle | ExpenseStyle

  datatype DashboardView = DashboardView(
    totalIncome: int,
    totalExpenses: int,
    remainingBalance: int,
    balanceStyle: CardStyle,
    alert: Alert)

  /** `renderAlertMessage`: the empty list is checked first, then expenses
      above income, then income above expenses. */
  function RenderAlert(count: nat, totalIncome: int, totalExpenses: int): (a: Alert)
    ensures a == NoTransactionsWarning <==> count == 0
    ensures a == ExpensesExceedIncome <==> count > 0 && totalIncome - totalExpenses < 0
    ensures a == IncomeExceedsExpenses <==> count > 0 && totalIncome - totalExpenses > 0
    ensures a == NoAlert <==> count > 0 && totalIncome == totalExpenses
  {
    if count == 0 then NoTransactionsWarning
    else if totalExpenses > totalIncome then ExpensesExceedIncome
    else if totalIncome > totalExpenses then IncomeExceedsExpenses
    else NoAlert
  }

  /** The dashboard for a list of transactions. Only the exact types
      "income" and "expense" are counted. */
  function Render(txs: seq<Transaction>): (r: DashboardView)
    ensures r.totalIncome == SumOfType(txs, IncomeType)
    ensures r.totalExpenses == SumOfType(txs, ExpenseType)
    ensures r.remainingBalance == r.totalIncome - r.totalExpenses
    ensures r.balanceStyle == IncomeStyle <==> r.remainingBalance >= 0
    ensures r.alert == NoTransactionsWarning <==> |txs| == 0
    ensures r.alert == ExpensesExceedIncome <==> |txs| > 0 && r.remainingBalance < 0
    ensures r.alert == IncomeExceedsExpenses <==> |txs| > 0 && r.remainingBalance > 0
    ensures r.alert == NoAlert <==> |txs| > 0 && r.remainingBalance == 0
  {
    var income := SumOfType(txs, IncomeType);
    var expenses := SumOfType(txs, ExpenseType);
    var balance := income - expenses;
    DashboardView(income, expenses, balance,
                  if balance >= 0 then IncomeStyle else ExpenseStyle,
                  RenderAlert(|txs|, income, expenses))
  }

  /** On a well-typed ledger the dashboard and the chart summary agree on
      every total. */
  lemma AgreesWithChartSummary(txs: seq<Transaction>)
    requires WellTyped(txs)
    ensures var s := ChartController.CalculateSummary(txs);
            && Render(txs).totalIncome == s.totalIncome
            && Render(txs).totalExpenses == s.totalExpense
            && Render(txs).remainingBalance == s.netBalance
  {
    IncomeAndExpensePartition(txs);
  }

  /** A stored type outside the enum (possible, since updates skip the
      validators) is an expense to the chart but nothing to the dashboard:
      appending such a record leaves the dashboard's totals as they were and
      adds its amount to the chart's expense total. */
  lemma UnknownTypeSplitsTheViews(txs: seq<Transaction>, t: Transaction)
    requires t.txType != IncomeType && t.txType != ExpenseType
    ensures Render(txs + [t]).totalIncome == Render(txs).totalIncome
    ensures Render(txs + [t]).totalExpenses == Render(txs).totalExpenses
    ensures Render(txs + [t]).remainingBalance == Render(txs).remainingBalance
    ensures ChartController.CalculateSummary(txs + [t]).totalIncome == ChartController.CalculateSummary(txs).totalIncome
    ensures ChartController.CalculateSummary(txs + [t]).totalExpense == ChartController.CalculateSummary(txs).totalExpense + t.amount
  {
    var txs' := txs + [t];
    assert txs'[..|txs'| - 1] == txs;
  }
}

=== FILE: email_controller.dfy ===
/** The password-reset token store and the two handlers that drive it. The
    store maps a token to the email it was issued for and its expiry time;
    expiry is checked lazily, on lookup. The clock and the random source are
    parameters, and so is the outcome of sending the email. */
module EmailController {
  import opened Wrappers

  newtype byte = x: int | 0 <= x < 256

  type Token = string

  datatype ResetRecord = ResetRecord(email: string, expires: int)

  type TokenStore = map<Token, ResetRecord>

  /** One hour, in milliseconds. */
  const TokenLifetimeMs: int := 3_600_000
  /** Random bytes drawn per token. */
  const TokenBytes: nat := 32

  /** A status code and the message (or error) text of a JSON reply. */
  datatype HttpReply = HttpReply(status: nat, message: string)

  const InstructionsSent := HttpReply(200, "Password reset instructions sent to your email")
  const InstructionsFailed := HttpReply(500, "Failed to send reset instructions")
  const InvalidToken := HttpReply(400, "Invalid or expired token")
  const ResetDone := HttpReply(200, "Password reset successful")
  const ResetFailed := HttpReply(500, "Failed to reset password")

  predicate IsLowerHex(c: char)
  {
    '0' <= c <= '9' || 'a' <= c <= 'f'
  }

  function HexDigit(n: int): (c: char)
    requires 0 <= n < 16
    ensures IsLowerHex(c)
  {
    if n < 10 then ('0' as int + n) as char else ('a' as int + n - 10) as char
  }

  function HexValue(c: char): (n: int)
    requires IsLowerHex(c)
    ensures 0 <= n < 16 && HexDigit(n) == c
  {
    if c <= '9' then c as int - '0' as int else c as int - 'a' as int + 10
  }

  /** `Buffer.toString('hex')`: two lower-case digits per byte, high nibble first. */
  function HexEncode(bytes: seq<byte>): (s: string)
    ensures |s| == 2 * |bytes|
    ensures forall i :: 0 <= i < |s| ==> IsLowerHex(s[i])
  {
    if |bytes| == 0 then ""
    else [HexDigit(bytes[0] as int / 16), HexDigit(bytes[0] as int % 16)] + HexEncode(bytes[1..])
  }

  /** The inverse of `HexEncode`: `None` on an odd length or a non-hex digit. */
  function HexDecode(s: string): (r: Option<seq<byte>>)
    ensures r.Some? ==> 2 * |r.value| == |s|
  {
    if |s| == 0 then Some([])
    else if |s| == 1 || !IsLowerHex(s[0]) || !IsLowerHex(s[1]) then None
    else
      match HexDecode(s[2..])
      case None => None
      case Some(rest) => Some([(HexValue(s[0]) * 16 + HexValue(s[1])) as byte] + rest)
  }

  lemma {:induction false} HexRoundTrip(bytes: seq<byte>)
    ensures HexDecode(HexEncode(bytes)) == Some(bytes)
  {
    if |bytes| > 0 {
      var s := HexEncode(bytes);
      var hi, lo := bytes[0] as int / 16, bytes[0] as int % 16;
      assert s[2..] == HexEncode(bytes[1..]);
      HexRoundTrip(bytes[1..]);
      assert HexValue(s[0]) == hi by {
        assert HexDigit(HexValue(s[0])) == HexDigit(hi);
      }
      assert HexValue(s[1]) == lo by {
        assert HexDigit(HexValue(s[1])) == HexDigit(lo);
      }
      assert [bytes[0]] + bytes[1..] == bytes;
    }
  }

  /** `generateResetToken`: the 32 random bytes, hex-encoded. */
  function GenerateResetToken(random: seq<byte>): (token: Token)
    requires |random| == TokenBytes
    ensures |token| == 64
    ensures forall i :: 0 <= i < |token| ==> IsLowerHex(token[i])
    ensures HexDecode(token) == Some(random)
  {
    HexRoundTrip(random);
    HexEncode(random)
  }

  /** Different random draws give different tokens. */
  lemma TokensFollowRandomness(r1: seq<byte>, r2: seq<byte>)
    requires |r1| == TokenBytes && |r2| == TokenBytes && r1 != r2
    ensures GenerateResetToken(r1) != GenerateResetToken(r2)
  {
  }

  /** `storeResetToken`: maps the token to its email and an expiry one hour
      from now, leaving every other token alone (earlier tokens for the same
      email included). */
  function StoreResetToken(store: TokenStore, token: Token, email: string, now: int): (r: TokenStore)
    ensures r.Keys == store.Keys + {token}
    ensures r[token] == ResetRecord(email, now + TokenLifetimeMs)
    ensures forall k :: k in store && k != token ==> r[k] == store[k]
  {
    store[token := ResetRecord(email, now + TokenLifetimeMs)]
  }

  /** `validateResetToken`: the record of a known, unexpired token. A token is
      still valid at the exact instant of its expiry. */
  function ValidateResetToken(store: TokenStore, token: Token, now: int): (r: Option<ResetRecord>)
    ensures r.Some? <==> token in store && now <= store[token].expires
    ensures r.Some? ==> r.value == store[token]
  {
    if token !in store || store[token].expires < now then None else Some(store[token])
  }

  /** `removeResetToken`: deletes exactly the given token. */
  function RemoveResetToken(store: TokenStore, token: Token): (r: TokenStore)
    ensures r.Keys == store.Keys - {token}
    ensures forall k :: k in r ==> r[k] == store[k]
  {
    store - {token}
  }

  /** `sendForgotPasswordEmail`: the token is stored before the email is sent,
      so it stays stored even when sending fails. */
  function SendForgotPasswordEmail(store: TokenStore, email: string, random: seq<byte>, now: int, mailSent: bool)
    : (r: (TokenStore, HttpReply))
    requires |random| == TokenBytes
    ensures var token := GenerateResetToken(random);
            && r.0 == StoreResetToken(store, token, email, now)
            && ValidateResetToken(r.0, token, now) == Some(ResetRecord(email, now + TokenLifetimeMs))
    ensures r.1 == if mailSent then InstructionsSent else InstructionsFailed
  {
    var token := GenerateResetToken(random);
    (StoreResetToken(store, token, email, now), if mailSent then InstructionsSent else InstructionsFailed)
  }

  /** `handlePasswordReset` after its input passed validation: an unknown or
      expired token is refused and changes nothing; a valid token is removed
      before the confirmation email is sent, whether or not sending works. */
  function HandlePasswordReset(store: TokenStore, token: Token, now: int, mailSent: bool)
    : (r: (TokenStore, HttpReply))
    ensures !(token in store && now <= store[token].expires) ==> r == (store, InvalidToken)
    ensures token in store && now <= store[token].expires ==>
              && r.0 == RemoveResetToken(store, token)
              && r.1 == (if mailSent then ResetDone else ResetFailed)
  {
    match ValidateResetToken(store, token, now)
    case None => (store, InvalidToken)
    case Some(_) => (RemoveResetToken(store, token), if mailSent then ResetDone else ResetFailed)
  }

  /** A token resets a password at most once: whatever the clock and the mail
      outcome, a second reset with the same token is refused. */
  lemma ResetIsSingleUse(store: TokenStore, token: Token, now1: int, now2: int, sent1: bool, sent2: bool)
    requires HandlePasswordReset(store, token, now1, sent1).1 != InvalidToken
    ensures var after := HandlePasswordReset(store, token, now1, sent1).0;
            HandlePasswordReset(after, token, now2, sent2) == (after, InvalidToken)
  {
  }

  /** A freshly issued token works up to and including one hour later and is
      refused one second after that. */
  lemma TokenLifetime(store: TokenStore, email: string, random: seq<byte>, now: int, sent: bool)
    requires |random| == TokenBytes
    ensures var (s, _) := SendForgotPasswordEmail(store, email, random, now, sent);
            var token := GenerateResetToken(random);
            && ValidateResetToken(s, token, now + TokenLifetimeMs).Some?
            && HandlePasswordReset(s, token, now + TokenLifetimeMs + 1000, sent) == (s, InvalidToken)
  {
  }

  /** Issuing a second token for an email does not revoke the first one. */
  lemma ReissueKeepsEarlierTokens(store: TokenStore, email: string, r1: seq<byte>, r2: seq<byte>, t1: int, t2: int, s1: bool, s2: bool)
    requires |r1| == TokenBytes && |r2| == TokenBytes && r1 != r2
    requires t1 <= t2 <= t1 + TokenLifetimeMs
    ensures var first := SendForgotPasswordEmail(store, email, r1, t1, s1).0;
            var second := SendForgotPasswordEmail(first, email, r2, t2, s2).0;
            && ValidateResetToken(second, GenerateResetToken(r1), t2) == Some(ResetRecord(email, t1 + TokenLifetimeMs))
            && ValidateResetToken(second, GenerateResetToken(r2), t2) == Some(ResetRecord(email, t2 + TokenLifetimeMs))
  {
    TokensFollowRandomness(r1, r2);
  }
}

=== FILE: money.dfy ===
/** Exact decimal amounts and the two-decimal rounding the ledger applies
    everywhere (`Number(x.toFixed(2))`). Amounts are stored as integer cents. */
module Money {

  /** The decimal number units / 10^scale, exactly as written by a client. */
  datatype Decimal = Decimal(units: int, scale: nat)

  function Pow10(n: nat): (r: nat)
    ensures r >= 1
  {
    if n == 0 then 1 else 10 * Pow10(n - 1)
  }

  function Abs(x: int): nat
  {
    if x < 0 then -x else x
  }

  /** `c` cents is the two-decimal rounding of `d`: no cent is nearer to `d`,
      and on an exact tie the cent farther from zero is taken. Scaled by
      10^scale so that the comparison stays in the integers. */
  predicate IsRoundedCents(d: Decimal, c: int)
  {
    var p := Pow10(d.scale);
    var x := d.units * 100;
    && 2 * Abs(c * p - x) <= p
    && (2 * Abs(c * p - x) == p ==> Abs(c * p) > Abs(x))
  }

  /** Rounds a non-negative u / q to the nearest integer, halves upwards. */
  function RoundHalfUp(u: nat, q: nat): (c: nat)
    requires q >= 1
    ensures 2 * Abs(c * q - u) <= q
    ensures 2 * Abs(c * q - u) == q ==> c * q > u
  {
    var n := 2 * u + q;
    var c := n / (2 * q);
    var r := n % (2 * q);
    assert n == c * (2 * q) + r;
    assert 2 * (c * q) == c * (2 * q);
    c
  }

  lemma Pow10Split(s: nat)
    requires s >= 2
    ensures Pow10(s) == 100 * Pow10(s - 2)
  {
    if s > 2 {
      Pow10Split(s - 1);
    }
  }

  /** Sign facts about a product with a positive factor. */
  lemma MulPositive(a: int, p: int)
    ensures p > 0 && a >= 1 ==> a * p >= p
    ensures p > 0 && a <= 0 ==> a * p <= 0
    ensures p > 0 && a >= 0 ==> a * p >= 0
    ensures p > 0 && a <= -1 ==> a * p <= -p
    ensures a * p - p == (a - 1) * p
  {
  }

  lemma MulDifference(a: int, b: int, p: int)
    ensures a * p - b * p == (a - b) * p
  {
  }

  /** A rounding of u / q on the integers, scaled by 100 into the shape of
      `IsRoundedCents`. */
  lemma ScaleRounding(c: int, u: int, q: int, p: int, x: int)
    requires p == 100 * q && x == u * 100
    requires 2 * Abs(c * q - u) <= q
    requires 2 * Abs(c * q - u) == q ==> Abs(c * q) > Abs(u)
    ensures 2 * Abs(c * p - x) <= p
    ensures 2 * Abs(c * p - x) == p ==> Abs(c * p) > Abs(x)
  {
    var y := c * q - u;
    assert c * p == 100 * (c * q);
    assert c * p - x == 100 * y;
  }

  /** `Number(x.toFixed(2))` on an exact decimal, as a whole number of cents:
      the magnitude is rounded half-up and the sign put back, so ties go away
      from zero. */
  function ToCents(d: Decimal): (c: int)
    ensures IsRoundedCents(d, c)
  {
    if d.scale <= 2 then
      var c := d.units * Pow10(2 - d.scale);
      ExactCents(d.units, d.scale, c);
      c
    else
      var m := RoundHalfUp(Abs(d.units), Pow10(d.scale - 2));
      var c: int := if d.units >= 0 then m else -(m as int);
      SignedRounding(d, m, c);
      c
  }

  lemma SignedRounding(d: Decimal, m: nat, c: int)
    requires d.scale > 2
    requires 2 * Abs(m * Pow10(d.scale - 2) - Abs(d.units)) <= Pow10(d.scale - 2)
    requires 2 * Abs(m * Pow10(d.scale - 2) - Abs(d.units)) == Pow10(d.scale - 2) ==> m * Pow10(d.scale - 2) > Abs(d.units)
    requires c == if d.units >= 0 then m else -(m as int)
    ensures IsRoundedCents(d, c)
  {
    var q := Pow10(d.scale - 2);
    Pow10Split(d.scale);
    SignedProduct(m, q, c, d.units >= 0);
    ScaleRounding(c, d.units, q, Pow10(d.scale), d.units * 100);
  }

  /** Putting the sign back on the magnitude `m` puts it back on `m * q`. */
  lemma SignedProduct(m: nat, q: nat, c: int, nonNegative: bool)
    requires c == if nonNegative then m else -(m as int)
    ensures c * q == if nonNegative then m * q else -(m * q)
    ensures m * q >= 0
  {
  }

  /** With at most two decimals the conversion to cents is exact. */
  lemma ExactCents(u: int, s: nat, c: int)
    requires s <= 2 && c == u * Pow10(2 - s)
    ensures c * Pow10(s) == u * 100
  {
    if s == 0 {
    } else if s == 1 {
      assert Pow10(1) == 10;
      assert c * 10 == u * 10 * 10;
    } else {
      assert Pow10(2) == 100;
    }
  }

  /** At most one cent is the two-decimal rounding of a given value x / p. */
  lemma {:induction false} NearestUnique(p: int, x: int, c1: int, c2: int)
    requires p > 0
    requires 2 * Abs(c1 * p - x) <= p && (2 * Abs(c1 * p - x) == p ==> Abs(c1 * p) > Abs(x))
    requires 2 * Abs(c2 * p - x) <= p && (2 * Abs(c2 * p - x) == p ==> Abs(c2 * p) > Abs(x))
    requires c1 <= c2
    ensures c1 == c2
  {
    if c1 != c2 {
      // The two candidates lie a whole step p apart, so both sit on the tie,
      // and the tie rule then rejects whichever one is nearer to zero.
      MulDifference(c2, c1, p);
      MulPositive(c2 - c1, p);
      MulPositive(c2 - c1 - 1, p);
      MulPositive(c1, p);
      MulPositive(c2, p);
      assert false;
    }
  }

  /** A whole number of cents read back as a two-decimal number. */
  function FromCents(c: int): (d: Decimal)
    ensures d.scale == 2
  {
    Decimal(c, 2)
  }

  /** At most one cent is the two-decimal rounding of a decimal, so
      `IsRoundedCents` pins `ToCents` down independently of how it computes. */
  lemma {:induction false} RoundedCentsUnique(d: Decimal, c1: int, c2: int)
    requires IsRoundedCents(d, c1) && IsRoundedCents(d, c2)
    ensures c1 == c2
  {
    if c1 <= c2 {
      NearestUnique(Pow10(d.scale), d.units * 100, c1, c2);
    } else {
      NearestUnique(Pow10(d.scale), d.units * 100, c2, c1);
    }
  }

  /** `ToCents` is exactly the nearest cent: a cent is the two-decimal
      rounding of a decimal if and only if it is what `ToCents` computes. */
  lemma ToCentsIsTheNearestCent(d: Decimal, c: int)
    ensures IsRoundedCents(d, c) <==> c == ToCents(d)
  {
    if IsRoundedCents(d, c) {
      RoundedCentsUnique(d, c, ToCents(d));
    }
  }

  /** Reading back a stored amount through the same rounding leaves it unchanged. */
  lemma CentsAreFixedPoints(c: int)
    ensures ToCents(FromCents(c)) == c
  {
  }

  /** Rounding twice is rounding once: the controller's pre-rounding followed by
      the schema setter stores the same cents as the setter alone. */
  lemma RoundingIdempotent(d: Decimal)
    ensures ToCents(FromCents(ToCents(d))) == ToCents(d)
  {
  }
}

=== FILE: strings.dfy ===
/** The string operations the request handling relies on: finding a
    character and `String.prototype.split` on a one-character separator. */
module Strings {
  import opened Wrappers

  /** The index of the first occurrence of `c`, if any (`indexOf`). */
  function IndexOf(s: string, c: char): (r: Option<nat>)
    ensures r.Some? ==> r.value < |s| && s[r.value] == c && c !in s[..r.value]
    ensures r.None? ==> c !in s
  {
    if |s| == 0 then None
    else if s[0] == c then Some(0)
    else
      match IndexOf(s[1..], c)
      case None => None
      case Some(i) =>
        assert s[..i + 1] == [s[0]] + s[1..][..i];
        Some(i + 1)
  }

  /** `s.split(sep)`: the pieces between consecutive separators, always at
      least one, possibly empty. */
  function Split(s: string, sep: char): (parts: seq<string>)
    ensures |parts| >= 1
    ensures forall i :: 0 <= i < |parts| ==> sep !in parts[i]
    decreases |s|
  {
    match IndexOf(s, sep)
    case None => [s]
    case Some(i) => [s[..i]] + Split(s[i + 1..], sep)
  }

  /** `parts.join(sep)`. */
  function Join(parts: seq<string>, sep: char): string
    requires |parts| >= 1
  {
    if |parts| == 1 then parts[0] else parts[0] + [sep] + Join(parts[1..], sep)
  }

  /** Splitting loses nothing: joining the pieces back gives the input. */
  lemma {:induction false} JoinSplit(s: string, sep: char)
    ensures Join(Split(s, sep), sep) == s
    decreases |s|
  {
    match IndexOf(s, sep)
    case None =>
    case Some(i) =>
      var tail := Split(s[i + 1..], sep);
      var parts := Split(s, sep);
      assert parts == [s[..i]] + tail;
      assert parts[1..] == tail;
      JoinSplit(s[i + 1..], sep);
      assert Join(parts, sep) == s[..i] + [sep] + Join(tail, sep);
      assert s == s[..i] + [sep] + s[i + 1..];
  }

  /** Pieces free of the separator survive a join and a split unchanged. */
  lemma {:induction false} SplitJoin(parts: seq<string>, sep: char)
    requires |parts| >= 1
    requires forall i :: 0 <= i < |parts| ==> sep !in parts[i]
    ensures Split(Join(parts, sep), sep) == parts
  {
    if |parts| > 1 {
      var s := Join(parts, sep);
      var head := parts[0];
      SplitJoin(parts[1..], sep);
      SplitAfterFirst(head, Join(parts[1..], sep), sep);
      assert s == head + [sep] + Join(parts[1..], sep);
      assert [parts[0]] + parts[1..] == parts;
    } else {
      assert IndexOf(parts[0], sep).None?;
    }
  }

  /** A separator-free prefix followed by the separator is the first piece. */
  lemma SplitAfterFirst(head: string, rest: string, sep: char)
    requires sep !in head
    ensures Split(head + [sep] + rest, sep) == [head] + Split(rest, sep)
  {
    var s := head + [sep] + rest;
    IndexOfAfterFree(head, [sep] + rest, sep);
    assert s == head + ([sep] + rest);
    assert IndexOf(s, sep) == Some(|head|);
    assert s[..|head|] == head;
    assert s[|head| + 1..] == rest;
  }

  lemma {:induction false} IndexOfAfterFree(head: string, rest: string, c: char)
    requires c !in head && |rest| > 0 && rest[0] == c
    ensures IndexOf(head + rest, c) == Some(|head|)
  {
    if |head| > 0 {
      IndexOfAfterFree(head[1..], rest, c);
      assert (head + rest)[1..] == head[1..] + rest;
    }
  }
}

=== FILE: transaction_controller.dfy ===
/** The per-user ledger: list, add, update and delete, every one scoped by the
    caller's identity. The datastore is a map from id to stored transaction;
    each operation returns the new map together with the reply it sends. */
module TransactionController {
  import opened Wrappers
  import opened Money
  import opened TransactionModel

  type Ledger = map<TxId, Transaction>

  /** What a handler sends back: a value, or an HTTP status with a message. */
  datatype Reply<T> = Ok(value: T) | Fail(status: nat, message: string)

  /** The request body shared by add and update. `amount` is `None` when
      `Number(amount)` is NaN; `date` is `None` when it cannot be cast. */
  datatype TxInput = TxInput(
    description: string,
    amount: Option<Decimal>,
    txType: string,
    category: string,
    date: Option<int>)

  const NotFound: string := "Transaction not found"
  const AddFailed: string := "Error adding transaction"
  const UpdateFailed: string := "Error updating transaction"
  const Deleted: string := "Transaction deleted successfully"

  /** True when `id` names a transaction that `caller` owns: the
      `findOne({ _id: id, userId })` lookup that gates update and delete. */
  predicate Owns(db: Ledger, caller: UserId, id: TxId)
  {
    id in db && db[id].userId == caller
  }

  /** `Number(Number(amount).toFixed(2))` in the controller: the request
      amount already rounded to two decimals, handed on to the schema. */
  function PreRound(v: Option<Decimal>): (r: Option<Decimal>)
    ensures r.Some? <==> v.Some?
    ensures r.Some? ==> r.value.scale == 2 && r.value.units == ToCents(v.value)
  {
    match v
    case None => None
    case Some(d) => Some(FromCents(ToCents(d)))
  }

  /** The controller's pre-rounding changes nothing the setter would not do. */
  lemma PreRoundIsHarmless(v: Option<Decimal>)
    ensures SetAmount(PreRound(v)) == SetAmount(v)
  {
    if v.Some? {
      RoundingIdempotent(v.value);
    }
  }

  /** The caller's transactions, each amount read through the getter. */
  function GetTransactions(db: Ledger, caller: UserId): (r: map<TxId, Transaction>)
    ensures forall id :: id in r <==> Owns(db, caller, id)
    ensures forall id :: id in r ==> id in db && r[id] == db[id]
    ensures forall id :: id in r ==> r[id].amount == GetAmount(db[id].amount)
  {
    map id | id in db && db[id].userId == caller :: db[id].(amount := GetAmount(db[id].amount))
  }

  /** The inputs the schema accepts on an add: a description, an amount and a
      date that can be cast, a type from the enumeration, and a category when
      the type is `expense`. */
  predicate Acceptable(input: TxInput)
  {
    && input.description != ""
    && input.amount.Some?
    && input.date.Some?
    && (input.txType == IncomeType || input.txType == ExpenseType)
    && (input.txType == ExpenseType ==> input.category != "")
  }

  /** `addTransaction`: the amount is pre-rounded, the setter rounds it again
      and the schema validates the new document. `newId` is the fresh id the
      datastore assigns. */
  function AddTransaction(db: Ledger, caller: UserId, input: TxInput, newId: TxId, now: int)
    : (r: (Ledger, Reply<Transaction>))
    requires newId !in db
    ensures r.1.Ok? <==> Acceptable(input)
    ensures r.1.Ok? ==> && r.0 == db[newId := r.1.value]
                        && r.1.value.userId == caller
                        && r.1.value.amount == ToCents(input.amount.value)
                        && r.1.value.description == input.description
                        && r.1.value.txType == input.txType
                        && r.1.value.category == input.category
                        && r.1.value.date == input.date.value
                        && r.1.value.createdAt == r.1.value.updatedAt == now
    ensures r.1.Fail? ==> r.0 == db && r.1 == Fail(500, AddFailed)
  {
    var draft := Draft(input.description, SetAmount(PreRound(input.amount)),
                       input.txType, input.category, input.date, Some(caller));
    PreRoundIsHarmless(input.amount);
    match Save(draft, now)
    case None => (db, Fail(500, AddFailed))
    case Some(t) => (db[newId := t], Ok(t.(amount := GetAmount(t.amount))))
  }

  /** `updateTransaction`: ownership is checked first; the update itself runs
      no schema validators, only the casts of amount and date. */
  function UpdateTransaction(db: Ledger, caller: UserId, id: TxId, input: TxInput, now: int)
    : (r: (Ledger, Reply<Transaction>))
    ensures !Owns(db, caller, id) ==> r == (db, Fail(404, NotFound))
    ensures Owns(db, caller, id) && (input.amount.None? || input.date.None?) ==>
              r == (db, Fail(500, UpdateFailed))
    ensures r.1.Ok? <==> Owns(db, caller, id) && input.amount.Some? && input.date.Some?
    ensures r.1.Ok? ==> && r.0 == db[id := r.1.value]
                        && r.1.value.userId == db[id].userId == caller
                        && r.1.value.createdAt == db[id].createdAt
                        && r.1.value.updatedAt == now
                        && r.1.value.description == input.description
                        && r.1.value.amount == ToCents(input.amount.value)
                        && r.1.value.txType == input.txType
                        && r.1.value.category == input.category
                        && r.1.value.date == input.date.value
  {
    if !Owns(db, caller, id) then (db, Fail(404, NotFound))
    else
      PreRoundIsHarmless(input.amount);
      match (SetAmount(PreRound(input.amount)), input.date)
      case (Some(c), Some(day)) =>
        var t := db[id].(description := input.description,
                         amount := c,
                         txType := input.txType,
                         category := input.category,
                         date := day,
                         updatedAt := now);
        (db[id := t], Ok(t.(amount := GetAmount(t.amount))))
      case _ => (db, Fail(500, UpdateFailed))
  }

  /** `deleteTransaction`: ownership-gated removal of exactly one record. */
  function DeleteTransaction(db: Ledger, caller: UserId, id: TxId): (r: (Ledger, Reply<string>))
    ensures !Owns(db, caller, id) ==> r == (db, Fail(404, NotFound))
    ensures Owns(db, caller, id) ==> r.1 == Ok(Deleted)
    ensures Owns(db, caller, id) ==> r.0.Keys == db.Keys - {id}
    ensures forall k :: k in r.0 ==> r.0[k] == db[k]
  {
    if !Owns(db, caller, id) then (db, Fail(404, NotFound))
    else (db - {id}, Ok(Deleted))
  }

  /** No caller can update or delete another user's transaction, even knowing
      its id: both answer 404 and leave the ledger as it was. */
  lemma ForeignIdIsNotFound(db: Ledger, owner: UserId, other: UserId, id: TxId, input: TxInput, now: int)
    requires id in db && db[id].userId == owner && other != owner
    ensures UpdateTransaction(db, other, id, input, now) == (db, Fail(404, NotFound))
    ensures DeleteTransaction(db, other, id) == (db, Fail(404, NotFound))
  {
  }

  /** Deleting the same id twice: the second call answers 404. */
  lemma DeleteTwiceIsNotFound(db: Ledger, caller: UserId, id: TxId)
    ensures var db1 := DeleteTransaction(db, caller, id).0;
            DeleteTransaction(db1, caller, id) == (db1, Fail(404, NotFound))
  {
  }

  /** Deleting the fresh id right after an add restores the ledger exactly,
      whether the add succeeded or failed. */
  lemma AddThenDeleteRestores(db: Ledger, caller: UserId, input: TxInput, newId: TxId, now: int)
    requires newId !in db
    ensures DeleteTransaction(AddTransaction(db, caller, input, newId, now).0, caller, newId).0 == db
  {
    var db1 := AddTransaction(db, caller, input, newId, now).0;
    assert db1 - {newId} == db;
  }

  /** A NaN amount travels as JSON `null`, and `Number(null)` is 0: an
      otherwise acceptable add then stores a zero amount. */
  lemma NullAmountIsStoredAsZero(db: Ledger, caller: UserId, description: string, txType: string,
                                 category: string, day: int, newId: TxId, now: int)
    requires newId !in db && description != ""
    requires txType == IncomeType || (txType == ExpenseType && category != "")
    ensures var r := AddTransaction(db, caller, TxInput(description, Some(Decimal(0, 0)), txType, category, Some(day)), newId, now);
            r.1.Ok? && r.1.value.amount == 0
  {
  }

  /** After an add, the caller's list gains exactly the new record and every
      other user's list is unchanged. */
  lemma AddIsVisibleOnlyToCaller(db: Ledger, caller: UserId, input: TxInput, newId: TxId, now: int, someone: UserId)
    requires newId !in db && Acceptable(input)
    ensures var (db1, reply) := AddTransaction(db, caller, input, newId, now);
            GetTransactions(db1, someone) ==
              if someone == caller then GetTransactions(db, someone)[newId := reply.value]
              else GetTransactions(db, someone)
  {
  }

  /** An update does not run the schema validators: an owned record can be
      turned into an expense with no category. */
  lemma UpdateSkipsCategoryRule(db: Ledger, caller: UserId, id: TxId, d: Decimal, day: int, now: int)
    requires Owns(db, caller, id)
    ensures var r := UpdateTransaction(db, caller, id, TxInput("x", Some(d), ExpenseType, "", Some(day)), now);
            r.1.Ok? && r.1.value.txType == ExpenseType && r.1.value.category == ""
  {
  }
}

=== FILE: transaction_form.dfy ===
/** The transaction form: the filter on amount keystrokes, the submit
    checks, the payload it hands to `onSave`, and the reset afterwards. The
    date input is a day number and "today" is a parameter. */
module TransactionForm {
  import opened Wrappers
  import opened Money
  import opened Strings
  import opened TransactionModel

  predicate IsDigit(c: char)
  {
    '0' <= c <= '9'
  }

  predicate AllDigits(s: string)
  {
    forall i :: 0 <= i < |s| ==> IsDigit(s[i])
  }

  lemma AllDigitsConcat(a: string, b: string)
    requires AllDigits(a) && AllDigits(b)
    ensures AllDigits(a + b)
  {
  }

  /** The value of a run of decimal digits. */
  function DigitsValue(s: string): nat
    requires AllDigits(s)
  {
    if |s| == 0 then 0 else 10 * DigitsValue(s[..|s| - 1]) + (s[|s| - 1] as int - '0' as int)
  }

  function Digit(n: int): (c: char)
    requires 0 <= n < 10
    ensures IsDigit(c)
  {
    ('0' as int + n) as char
  }

  /** The shortest decimal digits of a natural number. */
  function NatDigits(n: nat): (s: string)
    ensures AllDigits(s) && |s| >= 1
  {
    if n < 10 then [Digit(n)] else NatDigits(n / 10) + [Digit(n % 10)]
  }

  lemma {:induction false} NatDigitsValue(n: nat)
    ensures DigitsValue(NatDigits(n)) == n
  {
    if n >= 10 {
      NatDigitsValue(n / 10);
      var s := NatDigits(n);
      assert s[..|s| - 1] == NatDigits(n / 10);
    }
  }

  lemma ShiftDigit(x: int, p: int, y: int, d: int)
    ensures 10 * (x * p + y) + d == x * (10 * p) + (10 * y + d)
  {
  }

  /** Reading digits after digits: the first run is shifted left. */
  lemma {:induction false} DigitsValueConcat(a: string, b: string)
    requires AllDigits(a) && AllDigits(b)
    ensures AllDigits(a + b)
    ensures DigitsValue(a + b) == DigitsValue(a) * Pow10(|b|) + DigitsValue(b)
    decreases |b|
  {
    AllDigitsConcat(a, b);
    if |b| == 0 {
      assert a + b == a;
    } else {
      var front := b[..|b| - 1];
      var ab := a + b;
      assert ab[..|ab| - 1] == a + front;
      assert ab[|ab| - 1] == b[|b| - 1];
      DigitsValueConcat(a, front);
      var d := b[|b| - 1] as int - '0' as int;
      assert DigitsValue(ab) == 10 * DigitsValue(a + front) + d;
      assert DigitsValue(b) == 10 * DigitsValue(front) + d;
      ShiftDigit(DigitsValue(a), Pow10(|front|), DigitsValue(front), d);
    }
  }

  /** `s` is digits, a '.' at `p`, and digits after it. */
  predicate DotAt(s: string, p: int)
  {
    && 0 <= p < |s| && s[p] == '.'
    && AllDigits(s[..p]) && AllDigits(s[p + 1..])
  }

  /** `s` is digits, a '.' at `p`, and at most two digits after it. */
  predicate DotSplit(s: string, p: int)
  {
    DotAt(s, p) && |s| - (p + 1) <= 2
  }

  /** The meaning of `^\d*\.?\d{0,2}$`: digits only, or digits, one '.', and
      at most two digits after it. */
  ghost predicate MatchesAmountPattern(s: string)
  {
    AllDigits(s) || exists p :: DotSplit(s, p)
  }

  /** The states of a left-to-right scan of an amount being typed. */
  datatype ScanState = IntegerPart | FractionPart(digits: nat) | Refused

  function Step(st: ScanState, c: char): ScanState
  {
    match st
    case IntegerPart => if IsDigit(c) then IntegerPart else if c == '.' then FractionPart(0) else Refused
    case FractionPart(n) => if IsDigit(c) && n < 2 then FractionPart(n + 1) else Refused
    case Refused => Refused
  }

  function Scan(st: ScanState, s: string): ScanState
    decreases |s|
  {
    if |s| == 0 then st else Scan(Step(st, s[0]), s[1..])
  }

  /** The regular-expression test, as the scan never refusing. */
  function AmountPatternOk(s: string): (ok: bool)
    ensures ok <==> MatchesAmountPattern(s)
  {
    ScanIntegerPart(s);
    Scan(IntegerPart, s) != Refused
  }

  lemma {:induction false} ScanFractionPart(n: nat, s: string)
    requires n <= 2
    ensures Scan(FractionPart(n), s) != Refused <==> AllDigits(s) && n + |s| <= 2
    decreases |s|
  {
    if |s| > 0 {
      if IsDigit(s[0]) && n < 2 {
        ScanFractionPart(n + 1, s[1..]);
        assert AllDigits(s) <==> AllDigits(s[1..]);
      } else {
        RefusedStays(s[1..]);
      }
    }
  }

  lemma {:induction false} RefusedStays(s: string)
    ensures Scan(Refused, s) == Refused
  {
    if |s| > 0 {
      RefusedStays(s[1..]);
    }
  }

  lemma {:induction false} ScanIntegerPart(s: string)
    ensures Scan(IntegerPart, s) != Refused <==> MatchesAmountPattern(s)
  {
    if |s| > 0 {
      var c, rest := s[0], s[1..];
      if IsDigit(c) {
        ScanIntegerPart(rest);
        PatternAfterDigit(s);
      } else if c == '.' {
        ScanFractionPart(0, rest);
        PatternAfterDot(s);
      } else {
        RefusedStays(rest);
        assert !AllDigits(s);
        assert !MatchesAmountPattern(s);
      }
    } else {
      assert AllDigits(s);
    }
  }

  /** Dropping a leading digit moves the '.' one place left. */
  lemma DotSplitAfterDigit(s: string, q: int)
    requires |s| > 0 && IsDigit(s[0]) && q >= 0
    ensures DotSplit(s, q + 1) <==> DotSplit(s[1..], q)
  {
    if q + 1 < |s| {
      assert s[..q + 1] == [s[0]] + s[1..][..q];
      assert s[q + 1 + 1..] == s[1..][q + 1..];
    }
  }

  /** A leading digit neither helps nor hurts the pattern. */
  lemma PatternAfterDigit(s: string)
    requires |s| > 0 && IsDigit(s[0])
    ensures MatchesAmountPattern(s) <==> MatchesAmountPattern(s[1..])
  {
    assert AllDigits(s) <==> AllDigits(s[1..]);
    if p :| DotSplit(s, p) {
      assert p >= 1;
      DotSplitAfterDigit(s, p - 1);
    }
    if q :| DotSplit(s[1..], q) {
      DotSplitAfterDigit(s, q);
    }
  }

  /** After a leading '.', the pattern allows at most two digits and nothing else. */
  lemma PatternAfterDot(s: string)
    requires |s| > 0 && s[0] == '.'
    ensures MatchesAmountPattern(s) <==> AllDigits(s[1..]) && |s[1..]| <= 2
  {
    assert !AllDigits(s) by {
      assert !IsDigit(s[0]);
    }
    if AllDigits(s[1..]) && |s[1..]| <= 2 {
      assert s[..0] == [];
      assert DotSplit(s, 0);
    }
    if p :| DotSplit(s, p) {
      if p > 0 {
        assert s[..p][0] == '.';
      }
    }
  }

  /** `handleAmountChange`: an edit that matches the pattern replaces the
      amount; any other edit is ignored. */
  function HandleAmountChange(current: string, value: string): (r: string)
    ensures r == (if MatchesAmountPattern(value) then value else current)
  {
    if AmountPatternOk(value) || value == "" then value else current
  }

  /** The separate `value === ''` test adds nothing: the pattern accepts the
      empty string. */
  lemma EmptyEditIsPatternMatch()
    ensures AmountPatternOk("")
  {
  }

  /** The digits on both sides of the point at `p`, read as one number. */
  function DigitsAround(s: string, p: int): nat
    requires DotAt(s, p)
  {
    AllDigitsConcat(s[..p], s[p + 1..]);
    DigitsValue(s[..p] + s[p + 1..])
  }

  /** What `Number` reads as a non-negative number: digits, or digits with
      one '.' among them, with at least one digit in all. */
  ghost predicate UnsignedNumeral(s: string)
  {
    (s != "" && AllDigits(s)) || (|s| > 1 && exists p :: DotAt(s, p))
  }

  /** Only digits stand before the point, so it is the first '.'. */
  lemma DotAtIsFirstDot(s: string, p: int)
    requires DotAt(s, p)
    ensures IndexOf(s, '.') == Some(p)
  {
    assert '.' !in s[..p] by {
      assert !IsDigit('.');
    }
    assert s == s[..p] + s[p..];
    IndexOfAfterFree(s[..p], s[p..], '.');
  }

  lemma DotsAreFirst(s: string)
    ensures forall p :: DotAt(s, p) ==> IndexOf(s, '.') == Some(p)
  {
    forall p | DotAt(s, p)
      ensures IndexOf(s, '.') == Some(p)
    {
      DotAtIsFirstDot(s, p);
    }
  }

  /** `Number(s)` without a sign: digits read as a whole number, digits
      around one '.' read with the decimals as the scale, and anything else
      is NaN. */
  function ParseUnsigned(body: string): (r: Option<Decimal>)
    ensures r.Some? <==> UnsignedNumeral(body)
    ensures body != "" && AllDigits(body) ==> r == Some(Decimal(DigitsValue(body), 0))
    ensures forall p :: |body| > 1 && DotAt(body, p) ==> r == Some(Decimal(DigitsAround(body, p), |body| - (p + 1)))
  {
    DotsAreFirst(body);
    match IndexOf(body, '.')
    case None =>
      if body != "" && AllDigits(body) then Some(Decimal(DigitsValue(body), 0)) else None
    case Some(p) =>
      var whole, fraction := body[..p], body[p + 1..];
      if AllDigits(whole) && AllDigits(fraction) && |whole| + |fraction| > 0 then
        Some(Decimal(DigitsAround(body, p), |fraction|))
      else None
  }

  /** `Number(s)` on the strings the amount field can hold: "" is 0, an
      unsigned numeral reads as above, a leading '-' negates the numeral
      after it, and anything else (a lone "." or "-" among them) is NaN. */
  function ParseNumber(s: string): (r: Option<Decimal>)
    ensures s == "" ==> r == Some(Decimal(0, 0))
    ensures s == "." ==> r.None?
    ensures s != "" && s[0] != '-' ==> (r.Some? <==> UnsignedNumeral(s))
    ensures s != "" && AllDigits(s) ==> r == Some(Decimal(DigitsValue(s), 0))
    ensures forall p :: |s| > 1 && DotAt(s, p) ==> r == Some(Decimal(DigitsAround(s, p), |s| - (p + 1)))
    ensures s != "" && s[0] == '-' ==> (r.Some? <==> UnsignedNumeral(s[1..]))
    ensures s != "" && s[0] == '-' && r.Some? ==> r.value.units <= 0
  {
    if s == "" then Some(Decimal(0, 0))
    else if s[0] == '-' then
      match ParseUnsigned(s[1..])
      case None => None
      case Some(d) => Some(Decimal(-d.units, d.scale))
    else ParseUnsigned(s)
  }

  /** A leading '-' reads as the negation of the number after it. */
  lemma MinusNegates(s: string)
    requires s != "" && s[0] != '-'
    ensures ParseNumber("-" + s).Some? <==> ParseNumber(s).Some?
    ensures ParseNumber(s).Some? ==>
              ParseNumber("-" + s) == Some(Decimal(-ParseNumber(s).value.units, ParseNumber(s).value.scale))
  {
    assert ("-" + s)[1..] == s;
  }

  /** An amount the pattern accepts is a number (unless it is a lone '.'),
      is never negative, and has at most two decimals, so rounding it to
      cents is exact. */
  lemma PatternAmountsAreExact(s: string)
    requires MatchesAmountPattern(s) && s != "."
    ensures ParseNumber(s).Some?
    ensures ParseNumber(s).value.units >= 0 && ParseNumber(s).value.scale <= 2
    ensures ToCents(ParseNumber(s).value) * Pow10(ParseNumber(s).value.scale) == ParseNumber(s).value.units * 100
  {
    if s != "" && !AllDigits(s) {
      var p :| DotSplit(s, p);
      assert s[0] != '-' by {
        if p > 0 {
          assert s[..p][0] == s[0];
        }
      }
      assert |s| > 1 && DotAt(s, p);
    }
    var d := ParseNumber(s).value;
    ExactCents(d.units, d.scale, ToCents(d));
  }

  /** The digits `toFixed(2)` writes for a magnitude in cents. */
  function FormatMagnitude(m: nat): (s: string)
    ensures |s| >= 4 && s[|s| - 3] == '.' && IsDigit(s[0])
    ensures IsDigit(s[|s| - 2]) && IsDigit(s[|s| - 1])
  {
    NatDigits(m / 100) + "." + [Digit(m % 100 / 10), Digit(m % 10)]
  }

  /** `Number(cents / 100).toFixed(2)`: the text the edit form starts from. */
  function FormatCents(c: int): (s: string)
    ensures |s| >= 4 && s[|s| - 3] == '.'
    ensures IsDigit(s[|s| - 2]) && IsDigit(s[|s| - 1])
  {
    if c < 0 then "-" + FormatMagnitude(Abs(c)) else FormatMagnitude(c)
  }

  lemma TwoDigits(a: int, b: int)
    requires 0 <= a < 10 && 0 <= b < 10
    ensures AllDigits([Digit(a), Digit(b)])
    ensures DigitsValue([Digit(a), Digit(b)]) == 10 * a + b
  {
    var f := [Digit(a), Digit(b)];
    assert Digit(a) as int - '0' as int == a && Digit(b) as int - '0' as int == b;
    assert f[..1] == [Digit(a)];
    assert f[..1][..0] == [];
    assert DigitsValue(f[..1]) == a;
  }

  lemma CentsDigits(m: nat)
    ensures 0 <= m % 100 / 10 < 10 && 0 <= m % 10 < 10
    ensures 10 * (m % 100 / 10) + m % 10 == m % 100
  {
  }

  /** The two decimals `toFixed(2)` writes read back as the cents. */
  lemma TwoDecimals(m: nat)
    ensures AllDigits([Digit(m % 100 / 10), Digit(m % 10)])
    ensures DigitsValue([Digit(m % 100 / 10), Digit(m % 10)]) == m % 100
  {
    CentsDigits(m);
    TwoDigits(m % 100 / 10, m % 10);
  }

  /** Digits, a '.', and digits read as the digits without the point,
      scaled by the decimals. */
  lemma ReadDotted(whole: string, fraction: string)
    requires AllDigits(whole) && AllDigits(fraction) && |whole| > 0
    ensures AllDigits(whole + fraction)
    ensures ParseUnsigned(whole + ("." + fraction)) == Some(Decimal(DigitsValue(whole + fraction), |fraction|))
  {
    var body := whole + ("." + fraction);
    var p := |whole|;
    assert body[..p] == whole;
    assert body[p] == '.';
    assert body[p + 1..] == fraction;
    assert DotAt(body, p);
  }

  /** The unsigned text reads back as the magnitude, at scale 2. */
  lemma UnsignedRoundTrip(m: nat)
    ensures ParseUnsigned(FormatMagnitude(m)) == Some(Decimal(m, 2))
  {
    var whole := NatDigits(m / 100);
    var fraction := [Digit(m % 100 / 10), Digit(m % 10)];
    assert FormatMagnitude(m) == whole + ("." + fraction);
    TwoDecimals(m);
    ReadDotted(whole, fraction);
    DigitsValueConcat(whole, fraction);
    NatDigitsValue(m / 100);
    assert Pow10(|fraction|) == 100;
    WholeAndCents(m, DigitsValue(whole), DigitsValue(fraction), Pow10(|fraction|));
  }

  /** Whole units and cents put back together. */
  lemma WholeAndCents(m: nat, w: int, f: int, p: int)
    requires w == m / 100 && f == m % 100 && p == 100
    ensures w * p + f == m
  {
  }

  /** The text the edit form shows for a stored amount parses back to the
      stored cents, and rounding them changes nothing. */
  lemma FormatParseRoundTrip(c: int)
    ensures ParseNumber(FormatCents(c)) == Some(Decimal(c, 2))
    ensures ToCents(ParseNumber(FormatCents(c)).value) == c
  {
    var m := Abs(c);
    UnsignedRoundTrip(m);
    if c < 0 {
      assert FormatCents(c)[1..] == FormatMagnitude(m);
    }
    CentsAreFixedPoints(c);
  }

  /** The form's fields. `amount` is the text in the amount box. */
  datatype FormState = FormState(description: string, amount: string, txType: string, category: string, date: int)

  /** What `onSave` receives. `amount` is `None` when it is NaN; `id` is set
      only when an existing transaction is being edited. */
  datatype Payload = Payload(id: Option<TxId>, description: string, amount: Option<int>, txType: string, category: string, date: int)

  /** The blank form: what the form resets to after a save. */
  function Blank(today: int): FormState
  {
    FormState("", "", ExpenseType, "", today)
  }

  /** The form loaded with a transaction to edit; its amount in cents is
      shown with two decimals. */
  function EditForm(description: string, cents: int, txType: string, category: string, date: int): (st: FormState)
    ensures ParseNumber(st.amount) == Some(Decimal(cents, 2))
  {
    FormatParseRoundTrip(cents);
    FormState(description, FormatCents(cents), txType, category, date)
  }

  /** `!description || !amount || Number(amount) <= 0`: NaN is not `<= 0`. */
  predicate RejectsSubmit(st: FormState)
  {
    || st.description == ""
    || st.amount == ""
    || (ParseNumber(st.amount).Some? && ParseNumber(st.amount).value.units <= 0)
  }

  /** `handleSubmit`: a rejected form saves nothing and stays as it is;
      otherwise the payload carries the amount rounded to cents, the category
      only for an expense, the id only when editing, and the form is reset. */
  function HandleSubmit(st: FormState, editing: Option<TxId>, today: int): (r: (Option<Payload>, FormState))
    ensures r.0.None? <==> RejectsSubmit(st)
    ensures r.0.None? ==> r.1 == st
    ensures r.0.Some? ==> && r.1 == Blank(today)
                          && r.0.value.id == editing
                          && r.0.value.description == st.description != ""
                          && r.0.value.txType == st.txType
                          && r.0.value.date == st.date
                          && r.0.value.category == (if st.txType == ExpenseType then st.category else "")
                          && (r.0.value.amount.Some? <==> ParseNumber(st.amount).Some?)
                          && (r.0.value.amount.Some? ==> IsRoundedCents(ParseNumber(st.amount).value, r.0.value.amount.value))
  {
    if RejectsSubmit(st) then (None, st)
    else
      var amount := match ParseNumber(st.amount)
        case None => None
        case Some(d) => Some(ToCents(d));
      var payload := Payload(editing, st.description, amount, st.txType,
                             if st.txType == ExpenseType then st.category else "", st.date);
      (Some(payload), Blank(today))
  }

  /** A form whose amount the pattern accepts, once past the submit check,
      saves a positive whole number of cents. */
  lemma PatternSubmitSavesPositiveCents(st: FormState, editing: Option<TxId>, today: int)
    requires MatchesAmountPattern(st.amount) && st.amount != "." && !RejectsSubmit(st)
    ensures HandleSubmit(st, editing, today).0.Some?
    ensures HandleSubmit(st, editing, today).0.value.amount.Some?
    ensures HandleSubmit(st, editing, today).0.value.amount.value > 0
  {
    PatternAmountsAreExact(st.amount);
    var d := ParseNumber(st.amount).value;
    MulPositive(ToCents(d), Pow10(d.scale));
  }

  /** Submitting an edit form untouched saves the amount it was loaded with. */
  lemma UntouchedEditKeepsAmount(description: string, cents: int, txType: string, category: string, date: int, id: TxId, today: int)
    requires description != "" && cents > 0
    ensures var r := HandleSubmit(EditForm(description, cents, txType, category, date), Some(id), today);
            r.0.Some? && r.0.value.amount == Some(cents) && r.0.value.id == Some(id)
  {
    FormatParseRoundTrip(cents);
  }

  /** A lone "." gets through the submit check and is handed to `onSave`
      as NaN. */
  lemma LoneDotReachesOnSaveAsNaN(description: string, txType: string, category: string, date: int, editing: Option<TxId>, today: int)
    requires description != ""
    ensures var r := HandleSubmit(FormState(description, ".", txType, category, date), editing, today);
            r.0.Some? && r.0.value.amount.None?
  {
  }
}

=== FILE: transaction_model.dfy ===
/** The transaction schema: the fields a stored transaction has, the rules the
    schema checks when a document is saved, and the amount setter and getter. */
module TransactionModel {
  import opened Wrappers
  import opened Money

  /** Opaque identifiers issued by the datastore and the user collaborator. */
  type UserId = nat
  type TxId = nat

  const IncomeType: string := "income"
  const ExpenseType: string := "expense"

  /** A stored transaction. `amount` is in cents; `date`, `createdAt` and
      `updatedAt` are millisecond timestamps. `txType` is a plain string:
      the enum rule is only enforced when a document is saved. An absent
      string field is the empty string. */
  datatype Transaction = Transaction(
    userId: UserId,
    description: string,
    amount: int,
    txType: string,
    category: string,
    date: int,
    createdAt: int,
    updatedAt: int)

  /** A document as constructed before `save`: amounts already through the
      setter, `None` where a value could not be cast (NaN, an unparsable date)
      or was not supplied. */
  datatype Draft = Draft(
    description: string,
    amount: Option<int>,
    txType: string,
    category: string,
    date: Option<int>,
    userId: Option<UserId>)

  /** The schema paths whose validator can fail. */
  datatype Field = DescriptionField | AmountField | TypeField | CategoryField | DateField | UserIdField

  /** The amount setter: cast to a number, then keep two decimals. A value
      that is not a number stays unset. */
  function SetAmount(v: Option<Decimal>): (r: Option<int>)
    ensures r.Some? <==> v.Some?
    ensures r.Some? ==> IsRoundedCents(v.value, r.value)
  {
    match v
    case None => None
    case Some(d) => Some(ToCents(d))
  }

  /** The amount getter: applied to every stored amount on read. Because the
      setter already rounded it, the read value is the stored value. */
  function GetAmount(stored: int): (r: int)
    ensures r == stored
  {
    CentsAreFixedPoints(stored);
    ToCents(FromCents(stored))
  }

  /** The fields whose validator rejects the draft. Description, amount, type,
      date and owner are required; type must be one of the two enum values;
      category is required only when the type is "expense". */
  function ValidationErrors(d: Draft): (errs: set<Field>)
    ensures DescriptionField in errs <==> d.description == ""
    ensures AmountField in errs <==> d.amount.None?
    ensures TypeField in errs <==> d.txType != IncomeType && d.txType != ExpenseType
    ensures CategoryField in errs <==> d.txType == ExpenseType && d.category == ""
    ensures DateField in errs <==> d.date.None?
    ensures UserIdField in errs <==> d.userId.None?
  {
    (if d.description == "" then {DescriptionField} else {})
    + (if d.amount.None? then {AmountField} else {})
    + (if d.txType in {IncomeType, ExpenseType} then {} else {TypeField})
    + (if d.txType == ExpenseType && d.category == "" then {CategoryField} else {})
    + (if d.date.None? then {DateField} else {})
    + (if d.userId.None? then {UserIdField} else {})
  }

  /** `save` on a new document: the validated record, stamped with `now` as
      both creation and update time, or `None` when any validator fails. */
  function Save(d: Draft, now: int): (r: Option<Transaction>)
    ensures r.Some? <==> ValidationErrors(d) == {}
    ensures r.Some? ==> && d.amount == Some(r.value.amount)
                        && d.date == Some(r.value.date)
                        && d.userId == Some(r.value.userId)
                        && r.value.description == d.description != ""
                        && r.value.txType == d.txType
                        && r.value.category == d.category
                        && r.value.createdAt == r.value.updatedAt == now
  {
    if ValidationErrors(d) != {} then None
    else
      assert DescriptionField !in ValidationErrors(d);
      Some(Transaction(d.userId.value, d.description, d.amount.value, d.txType,
                       d.category, d.date.value, now, now))
  }

  /** Sum of the amounts of the transactions whose type is exactly `kind`
      (the `filter(t => t.type === kind)` then `reduce` idiom). */
  function SumOfType(txs: seq<Transaction>, kind: string): int
  {
    if |txs| == 0 then 0
    else
      var t := txs[|txs| - 1];
      SumOfType(txs[..|txs| - 1], kind) + (if t.txType == kind then t.amount else 0)
  }

  /** Sum of all amounts, whatever their type. */
  function SumAmounts(txs: seq<Transaction>): int
  {
    if |txs| == 0 then 0 else SumAmounts(txs[..|txs| - 1]) + txs[|txs| - 1].amount
  }

  /** Every transaction carries one of the two enum values, as `save` ensures. */
  predicate WellTyped(txs: seq<Transaction>)
  {
    forall i :: 0 <= i < |txs| ==> txs[i].txType == IncomeType || txs[i].txType == ExpenseType
  }

  /** On a well-typed ledger every amount is income or expense, never both. */
  lemma {:induction false} IncomeAndExpensePartition(txs: seq<Transaction>)
    requires WellTyped(txs)
    ensures SumOfType(txs, IncomeType) + SumOfType(txs, ExpenseType) == SumAmounts(txs)
  {
    if |txs| > 0 {
      IncomeAndExpensePartition(txs[..|txs| - 1]);
    }
  }
}

=== FILE: validation.dfy ===
/** The request validators run before the contact and password-reset
    handlers. An absent field is the empty string: both are falsy. */
module Validation {
  import opened Wrappers
  import opened Strings

  /** What a validator does: hand the request on, or answer with an error
      and, for missing fields, a per-field detail (`None` is JSON null). */
  datatype Outcome = Next | Reject(status: nat, error: string, details: map<string, Option<string>>)

  datatype ContactForm = ContactForm(name: string, email: string, subject: string, message: string)

  datatype ResetForm = ResetForm(token: string, newPassword: string)

  const MissingFields: string := "Missing required fields"
  const BadEmail: string := "Invalid email format"
  const ShortPassword: string := "Password must be at least 8 characters long"
  const MinPasswordLength: nat := 8

  /** The characters JavaScript's `\s` matches. */
  predicate IsJsSpace(c: char)
  {
    var n := c as int;
    || (0x09 <= n <= 0x0D) || n == 0x20 || n == 0xA0 || n == 0x1680
    || (0x2000 <= n <= 0x200A) || n == 0x2028 || n == 0x2029 || n == 0x202F
    || n == 0x205F || n == 0x3000 || n == 0xFEFF
  }

  /** A character of the class `[^\s@]`. */
  predicate PartChar(c: char)
  {
    !IsJsSpace(c) && c != '@'
  }

  /** The meaning of `^[^\s@]+@[^\s@]+\.[^\s@]+$`: an '@' at i and a '.' at j
      split the text into three non-empty runs, and every character other
      than that '@' belongs to `[^\s@]` (a '.' does). */
  ghost predicate MatchesEmailPattern(s: string)
  {
    exists i, j :: 0 < i && i + 1 < j && j + 1 < |s| && s[i] == '@' && s[j] == '.' && AllPartCharsExcept(s, i)
  }

  predicate AllPartCharsExcept(s: string, at: int)
  {
    forall k :: 0 <= k < |s| && k != at ==> PartChar(s[k])
  }

  /** The email test, by scanning: the first '@' is not at the start, every
      other character is in `[^\s@]`, and a '.' follows the '@' with at least
      one character on either side of it. */
  function IsValidEmail(s: string): (ok: bool)
    ensures ok <==> MatchesEmailPattern(s)
  {
    if ScanAccepts(s) then
      ScanImpliesPattern(s);
      true
    else
      PatternImpliesScan(s);
      false
  }

  predicate ScanAccepts(s: string)
  {
    match IndexOf(s, '@')
    case None => false
    case Some(i) => 0 < i && i + 3 < |s| && AllPartCharsExcept(s, i) && '.' in s[i + 2..|s| - 1]
  }

  lemma ScanImpliesPattern(s: string)
    requires ScanAccepts(s)
    ensures MatchesEmailPattern(s)
  {
    var i := IndexOf(s, '@').value;
    var tail := s[i + 2..|s| - 1];
    var k :| 0 <= k < |tail| && tail[k] == '.';
    var j := i + 2 + k;
    assert s[j] == tail[k];
  }

  lemma PatternImpliesScan(s: string)
    ensures MatchesEmailPattern(s) ==> ScanAccepts(s)
  {
    if !MatchesEmailPattern(s) {
      return;
    }
    var i, j :| 0 < i && i + 1 < j && j + 1 < |s| && s[i] == '@' && s[j] == '.' && AllPartCharsExcept(s, i);
    var at := IndexOf(s, '@');
    assert at.Some? by {
      assert s[i] == '@';
    }
    assert at.value == i;
    assert s[i + 2..|s| - 1][j - (i + 2)] == '.';
  }

  /** `validateContactForm`: missing fields first, with a detail for exactly
      the missing ones; then the email format; otherwise `next()`. */
  function ValidateContactForm(f: ContactForm): (r: Outcome)
    ensures r.Next? <==> f.name != "" && f.email != "" && f.subject != "" && f.message != ""
                         && MatchesEmailPattern(f.email)
    ensures (f.name == "" || f.email == "" || f.subject == "" || f.message == "") ==>
              && r.Reject? && r.status == 400 && r.error == MissingFields
              && r.details.Keys == {"name", "email", "subject", "message"}
              && (r.details["name"].Some? <==> f.name == "")
              && (r.details["email"].Some? <==> f.email == "")
              && (r.details["subject"].Some? <==> f.subject == "")
              && (r.details["message"].Some? <==> f.message == "")
    ensures f.name != "" && f.email != "" && f.subject != "" && f.message != "" && !MatchesEmailPattern(f.email) ==>
              r == Reject(400, BadEmail, map[])
  {
    if f.name == "" || f.email == "" || f.subject == "" || f.message == "" then
      Reject(400, MissingFields, map[
        "name" := if f.name == "" then Some("Name is required") else None,
        "email" := if f.email == "" then Some("Email is required") else None,
        "subject" := if f.subject == "" then Some("Subject is required") else None,
        "message" := if f.message == "" then Some("Message is required") else None])
    else if !IsValidEmail(f.email) then Reject(400, BadEmail, map[])
    else Next
  }

  /** `validatePasswordReset`: both fields present, then a length of at least
      eight characters. */
  function ValidatePasswordReset(f: ResetForm): (r: Outcome)
    ensures r.Next? <==> f.token != "" && |f.newPassword| >= MinPasswordLength
    ensures (f.token == "" || f.newPassword == "") ==>
              && r.Reject? && r.status == 400 && r.error == MissingFields
              && r.details.Keys == {"token", "newPassword"}
              && (r.details["token"].Some? <==> f.token == "")
              && (r.details["newPassword"].Some? <==> f.newPassword == "")
    ensures f.token != "" && 0 < |f.newPassword| < MinPasswordLength ==> r == Reject(400, ShortPassword, map[])
  {
    if f.token == "" || f.newPassword == "" then
      Reject(400, MissingFields, map[
        "token" := if f.token == "" then Some("Token is required") else None,
        "newPassword" := if f.newPassword == "" then Some("New password is required") else None])
    else if |f.newPassword| < MinPasswordLength then Reject(400, ShortPassword, map[])
    else Next
  }

  /** The pattern requires exactly one '@': a second one anywhere is refused. */
  lemma EmailHasOneAt(s: string, a: int, b: int)
    requires 0 <= a < b < |s| && s[a] == '@' && s[b] == '@'
    ensures !MatchesEmailPattern(s)
  {

  }
}

=== FILE: wrappers.dfy ===
/** The optional value shared by every module of the model. */
module Wrappers {

  /** A value that may be absent: an undefined field, a failed lookup, a NaN. */
  datatype Option<+T> = None | Some(value: T)
}
